=== FILE: README.md ===
# Toll-master admin: the record-handling core in Dafny

The toll-master admin dashboard keeps three lists of mock records in
component state: fines, toll plazas and registered vehicles. Each
management screen has a search box, a form buffer behind a dialog, and a
few handlers that turn the current list and the buffer into a new list.
This project models those handlers as pure functions over immutable
datatypes. Each screen's state (list, search term, dialog flags, form
buffer) is one `Screen` value, and each handler maps a `Screen` to a new
`Screen`. A rejected form returns the `Screen` unchanged, which is what
the source does after showing its error toast.

Modules:

- `Wrappers`: `Option`, used for the source's `null`-or-record state.
- `Text`: the string primitives the handlers call. These are `toLowerCase`
  as an ASCII case fold, `includes`, one-character `padStart`, `String(n)`
  for a natural number, and `parseInt` without a radix. The three-field
  search predicate `MatchesAny` is here too.
- `Collection`: `filter` and its laws (subsequence, membership, counts,
  concatenation), the `reduce` sum, and "pairwise distinct ids".
- `Ids`: id minting. `NextId` is the source's rule: prefix plus the list
  length + 1, zero-padded to 3. `FreshId` is the corrected rule: one past
  the largest ordinal in use.
- `Fines`, `Tolls`, `Vehicles`: one module per screen. Each has its seed
  data, search filter, handlers and stat-card figures.

Every `status` is kept as a string. The source casts the dialog's select
value with `as`, and nothing at run time restricts it to the enumeration.
The counts therefore compare strings, as the source does.

The handlers are looser than a typical record store, and the model follows the code:

- The presence check tests for the empty string. It does not trim, so a
  field holding only blanks passes.
- The amount and the rate are not checked to be numbers. `parseInt` may
  give NaN, and that NaN is stored.
- Deleting an absent id is a silent identity, not a `NotFound` error.
- Ids are minted from the list length, so they are not unique after a
  delete (see Findings).

## Model

| member | source | states |
|---|---|---|
| `Text.Lower` | src/pages/FineManagement.tsx:47 | lower-casing keeps the length, turns each upper-case ASCII letter into its lower-case letter (code point + 32), and changes no other character |
| `Text.Contains` | src/pages/FineManagement.tsx:47-49 | the left-to-right scan answers true exactly when the needle occurs at some position of the haystack |
| `Text.ContainsEmpty` | src/pages/FineManagement.tsx:46-50 | every string includes the empty string, so an empty search term matches any field |
| `Text.MatchesAnyThree` | src/pages/FineManagement.tsx:46-50 | matching any of three fields is the disjunction of the three lower-cased `includes` tests |
| `Text.MatchesAnyIgnoresCase` | src/pages/FineManagement.tsx:47-49 | lower-casing the search term beforehand does not change whether a record matches |
| `Text.PadStart` | src/pages/FineManagement.tsx:63 | padStart gives length max(width, input length), ends with the input, and pads only with the pad character; it never truncates |
| `Text.NatToString` | src/pages/FineManagement.tsx:63 | String(n) is a non-empty digit string with no leading zero whose decimal value is n |
| `Text.NatToStringLength` | src/pages/FineManagement.tsx:63 | String(n) has at most three digits exactly when n < 1000, and one digit exactly when n < 10 |
| `Text.LeadingZerosValue` | src/pages/FineManagement.tsx:63 | zero padding on the left does not change the value of a digit string |
| `Text.ParseInt` | src/pages/FineManagement.tsx:66 | no `ensures` of its own: defined as skip leading blanks, read one optional sign, read the longest digit run, NaN when the run is empty; characterised by `Text.ParseIntOfDigits`, `Text.ParseIntOfNatToString` and `Text.ParseIntNaN` |
| `Text.ParseIntOfDigits` | src/pages/FineManagement.tsx:66 | a digit run followed by a non-digit (or nothing) parses to the run's value, leading zeros included |
| `Text.ParseIntOfNatToString` | src/pages/FineManagement.tsx:66 | the modelled parseInt reads back String(n) as n, also when the digits are followed by a non-digit (exact integers: see Left out) |
| `Text.ParseIntNaN` | src/pages/FineManagement.tsx:66 | an amount that starts with no digit, sign or blank parses to NaN |
| `Collection.Filter` | src/pages/FineManagement.tsx:46-50 | filter returns an order-preserving subsequence of its input, and every element it keeps satisfies the predicate |
| `Collection.FilterMembers` | src/pages/FineManagement.tsx:46-50 | an element is in the filtered list exactly when it is in the input and satisfies the predicate |
| `Collection.FilterMultiset` | src/pages/FineManagement.tsx:46-50 | a kept element is kept with all its copies; a rejected one has no copy left |
| `Collection.FilterKeepsAll` | src/pages/FineManagement.tsx:82 | a filter whose predicate holds for every element returns the input unchanged |
| `Collection.FilterEmpty` | src/pages/VehicleManagement.tsx:169-170 | a filter keeps nothing exactly when no element satisfies the predicate |
| `Collection.FilterCongruent` | src/pages/FineManagement.tsx:46-50 | predicates that agree on every element give the same filtered list |
| `Collection.FilterAppend` | src/pages/VehicleManagement.tsx:168-170 | filtering a concatenation is the concatenation of the filtered parts |
| `Collection.FilterDropsOne` | src/pages/FineManagement.tsx:82 | a filter that rejects one position only removes exactly that element |
| `Collection.FilterComplementLength` | src/pages/TollManagement.tsx:151 | the counts of elements kept by a predicate and by its negation add up to the length |
| `Collection.FilterDisjointLength` | src/pages/VehicleManagement.tsx:169-170 | two predicates that never hold together keep at most as many elements as the list has |
| `Collection.SumOfAppend` | src/pages/TollManagement.tsx:150 | the sum over a concatenation is the sum of the sums |
| `Collection.SumOfPointwise` | src/pages/TollManagement.tsx:150 | lists that agree position by position on the summed field have the same sum |
| `Collection.SumOfFilterSplit` | src/pages/TollManagement.tsx:150 | the sum is the sum over the kept elements plus the sum over the dropped ones |
| `Collection.SumOfNonNegative` | src/pages/TollManagement.tsx:150 | a sum of non-negative terms is non-negative |
| `Collection.SubseqDistinctKeys` | src/pages/FineManagement.tsx:82 | deleting elements cannot make two ids equal |
| `Collection.DistinctKeysAppend` | src/pages/FineManagement.tsx:72 | appending a record leaves the ids pairwise different exactly when they were before and its id is not in use |
| `Ids.NextId` | src/pages/FineManagement.tsx:63 | the minted id is the prefix and at least three digits whose value is the list length + 1; it is exactly four characters long iff the list has fewer than 999 records |
| `Ids.NextIdNoTruncation` | src/pages/FineManagement.tsx:63 | from 999 records on, the id is the prefix and String(length + 1) unpadded, more than four characters long |
| `Ids.FourCharOrdinal` | src/pages/FineManagement.tsx:63 | the ordinal of a four-character id is the value of its three digits |
| `Ids.MaxOrdinal` | src/pages/FineManagement.tsx:63 | the result bounds every id's ordinal and is 0 or the ordinal of some id (used by the corrected rule) |
| `Ids.FreshId` | src/pages/FineManagement.tsx:63 | the corrected rule mints an id that is not in use and whose ordinal exceeds every ordinal in use |
| `Ids.FreshIdAgreesWithoutDeletes` | src/pages/FineManagement.tsx:63 | while the ids are exactly the minted sequence, the corrected rule mints what the source mints |
| `Fines.Visible` | src/pages/FineManagement.tsx:46-50 | the shown fines are an order-preserving subsequence; a fine is shown iff the lower-cased term occurs in its lower-cased vehicle number, violation type or location, and then with all its copies |
| `Fines.VisibleEmptyTerm` | src/pages/FineManagement.tsx:46-50 | an empty search term shows every fine, in the original order |
| `Fines.VisibleIgnoresCase` | src/pages/FineManagement.tsx:46-50 | searching for a term and for its lower-cased form shows the same fines |
| `Fines.AddFine` | src/pages/FineManagement.tsx:52-74 | an empty vehicle number, violation type, amount or location leaves the screen unchanged; otherwise exactly one fine is appended with id F + padStart(length + 1, 3, '0'), status Pending, the given date, the parsed amount and the typed fields, the form is cleared and the dialog closed; the list changes iff the form is complete |
| `Fines.FromForm` | src/pages/FineManagement.tsx:62-70 | the new fine carries the given id, the typed vehicle number, violation type and location, `parseInt` of the typed amount, status Pending and the given date |
| `Fines.AddFineLongIds` | src/pages/FineManagement.tsx:63 | from 999 fines on, the new fine's id is "F" + String(length + 1), longer than four characters |
| `Fines.AddFineDistinctIff` | src/pages/FineManagement.tsx:63 | an accepted add keeps ids pairwise different exactly when they were and no fine already carries F + padStart(length + 1, 3, '0') |
| `Fines.DeleteFine` | src/pages/FineManagement.tsx:81-82 | delete keeps, in order and with all copies, exactly the fines whose id differs from the argument; nothing else on the screen changes |
| `Fines.DeleteAbsentIsIdentity` | src/pages/FineManagement.tsx:81-82 | deleting an id no fine carries leaves the screen unchanged |
| `Fines.DeleteKeepsIdsDistinct` | src/pages/FineManagement.tsx:81-82 | delete keeps ids pairwise different |
| `Fines.SeedIdsDistinct` | src/pages/FineManagement.tsx:27-33 | the seeded fines have pairwise different ids |
| `Fines.DeleteF002FromSeed` | src/pages/FineManagement.tsx:27-33 | deleting F002 from the seed leaves the other four fines in order |
| `Fines.DuplicateIdAfterDeleteThenAdd` | src/pages/FineManagement.tsx:63 | from the seed, deleting F002 and adding any complete form gives two fines with id F005 |
| `Fines.AddFineFresh` | src/pages/FineManagement.tsx:52-74 | the corrected add behaves like the source's add but mints an id not in use, so distinct ids stay distinct |
| `Fines.AddFineFreshAgreesWithoutDeletes` | src/pages/FineManagement.tsx:63 | while no fine has been deleted, the corrected add and the source's add coincide |
| `Fines.FreshIdAfterDeleteThenAdd` | src/pages/FineManagement.tsx:63 | on the counterexample's scenario the corrected add mints F006 and keeps ids distinct |
| `Tolls.Visible` | src/pages/TollManagement.tsx:48-52 | the shown tolls are an order-preserving subsequence; a toll is shown iff the lower-cased term occurs in its lower-cased name, location or type |
| `Tolls.VisibleEmptyTerm` | src/pages/TollManagement.tsx:48-52 | an empty search term shows every toll, in order |
| `Tolls.ResetForm` | src/pages/TollManagement.tsx:121-125 | the form becomes blank with status Active, which fails the presence check; no toll is being edited and the dialog is closed; the list is untouched |
| `Tolls.OpenEditDialog` | src/pages/TollManagement.tsx:127-137 | edit mode targets the given toll, the form mirrors its name, location, rate, type and status, and the dialog is open |
| `Tolls.SetDialogOpen` | src/pages/TollManagement.tsx:157-160 | opening only shows the dialog; closing also blanks the form and leaves edit mode; the list is untouched |
| `Tolls.CloseCancelsEdit` | src/pages/TollManagement.tsx:157-160 | closing the dialog after opening an edit leaves the list as it was and the screen in add mode |
| `Tolls.FromForm` | src/pages/TollManagement.tsx:64-73 | a new toll mirrors the form and starts with zero daily revenue and zero vehicles |
| `Tolls.HandleAdd` | src/pages/TollManagement.tsx:54-81 | an incomplete form leaves the screen unchanged; otherwise exactly one toll is appended with id T + padStart(length + 1, 3, '0'), the form's fields and status, zero revenue and vehicles, and the form is reset; the list changes iff the form is complete |
| `Tolls.HandleAddDistinctIff` | src/pages/TollManagement.tsx:65 | an accepted add keeps ids pairwise different exactly when they were and no toll already carries T + padStart(length + 1, 3, '0') |
| `Tolls.AddDefaultsToActive` | src/pages/TollManagement.tsx:40-46 | a toll added with the status left at its default is Active |
| `Tolls.UpdateTolls` | src/pages/TollManagement.tsx:93-104 | the update keeps the length and every toll with another id; a matching toll takes the form's name, location, rate, status and type and keeps its id, daily revenue and vehicle count |
| `Tolls.HandleUpdate` | src/pages/TollManagement.tsx:83-111 | with no toll being edited or an incomplete form the screen is unchanged; otherwise the list is updated by the edited toll's id and the form reset; the screen changes iff the update is accepted |
| `Tolls.Submit` | src/pages/TollManagement.tsx:228-233 | the dialog button runs the update in edit mode (the list becomes the map by the edited toll's id) and the add otherwise (one toll appended with the length-minted id); an accepted submit resets the form, and an incomplete form changes nothing |
| `Tolls.ResetFormIdempotent` | src/pages/TollManagement.tsx:121-125 | resetting twice is resetting once, and submitting a freshly reset form changes nothing |
| `Tolls.UpdateKeepsIds` | src/pages/TollManagement.tsx:93-104 | for every list, repeated ids included, an update keeps every id at its position; ids that were distinct stay distinct |
| `Tolls.EditWithoutChangesIsIdentity` | src/pages/TollManagement.tsx:127-137 | with distinct ids, opening a listed toll for editing and submitting the untouched form leaves the list unchanged |
| `Tolls.EditWithoutChangesIff` | src/pages/TollManagement.tsx:93-104 | for any list, an untouched edit leaves it unchanged exactly when the form is rejected or every toll with the edited id already has the edited toll's name, location, rate, type and status |
| `Tolls.EditSharedIdOverwrites` | src/pages/TollManagement.tsx:93-104 | when two tolls share an id, submitting the untouched form of one gives the other its name, location, rate, status and type |
| `Tolls.HandleDelete` | src/pages/TollManagement.tsx:113-114 | delete keeps, in order, exactly the tolls whose id differs from the argument; nothing else changes |
| `Tolls.DeleteAbsentIsIdentity` | src/pages/TollManagement.tsx:113-114 | deleting an id no toll carries leaves the screen unchanged |
| `Tolls.ActiveTolls` | src/pages/TollManagement.tsx:151 | the active count never exceeds the number of tolls |
| `Tolls.UnderMaintenance` | src/pages/TollManagement.tsx:274 | length minus the active count is the number of tolls whose status is not Active, so it is never negative |
| `Tolls.AddKeepsRevenue` | src/pages/TollManagement.tsx:150 | adding a toll never changes the total daily revenue |
| `Tolls.UpdateKeepsRevenue` | src/pages/TollManagement.tsx:150 | updating a toll never changes the total daily revenue |
| `Tolls.DeleteRevenue` | src/pages/TollManagement.tsx:150 | after a delete, the total plus the deleted tolls' revenue equals the total before |
| `Tolls.TotalRevenue` | src/pages/TollManagement.tsx:150 | the `reduce` total of daily revenue is 0 for no tolls and never negative when no revenue is; `AddKeepsRevenue`, `UpdateKeepsRevenue` and `DeleteRevenue` relate it across handlers |
| `Tolls.SeedIdsDistinct` | src/pages/TollManagement.tsx:27-33 | the seeded tolls have pairwise different ids |
| `Tolls.DuplicateIdAfterDeleteThenAdd` | src/pages/TollManagement.tsx:65 | from the seed, deleting T002 and adding any complete form gives two tolls with id T005 |
| `Tolls.SharedIdEditAndDelete` | src/pages/TollManagement.tsx:83-114 | on the list with two T005, an untouched edit of the new T005 overwrites the seeded Airport Access toll's name, and deleting T005 removes both tolls |
| `Tolls.HandleAddFresh` | src/pages/TollManagement.tsx:54-81 | the corrected add behaves like the source's add but mints an id not in use, so distinct ids stay distinct |
| `Vehicles.Visible` | src/pages/VehicleManagement.tsx:103-107 | the shown vehicles are an order-preserving subsequence; a vehicle is shown iff the lower-cased term occurs in its lower-cased plate number, owner or model |
| `Vehicles.VisibleEmptyTerm` | src/pages/VehicleManagement.tsx:103-107 | an empty search term shows every vehicle, in order |
| `Vehicles.OpenEditDialog` | src/pages/VehicleManagement.tsx:139-148 | the vehicle is selected, the buffer mirrors its owner, phone, address and status, and the edit dialog is open; the list is untouched |
| `Vehicles.OpenViewDialog` | src/pages/VehicleManagement.tsx:150-153 | the vehicle is selected and the view dialog is open; the list, the search term, the edit flag and the edit buffer are untouched |
| `Vehicles.UpdateVehicles` | src/pages/VehicleManagement.tsx:119-129 | the update keeps the length and every vehicle with another id; a matching vehicle takes the buffer's owner, phone, address and status and keeps its id, plate, model, fine count, fine total and last violation |
| `Vehicles.HandleUpdate` | src/pages/VehicleManagement.tsx:109-132 | with no selection or an empty owner, phone or address the screen is unchanged (the status is not checked); otherwise the list is updated by the selected id, the selection is cleared and the dialog closed; ids stay in place; the screen changes iff the update is accepted |
| `Vehicles.EditWithoutChangesIsIdentity` | src/pages/VehicleManagement.tsx:139-147 | with distinct ids, opening a listed vehicle for editing and committing the untouched buffer leaves the list unchanged |
| `Vehicles.Step` | src/pages/VehicleManagement.tsx:226-411 | no user event on the screen moves or changes a vehicle id |
| `Vehicles.RunKeepsIds` | src/pages/VehicleManagement.tsx:109-153 | no sequence of events moves or changes a vehicle id |
| `Vehicles.SeedIdsDistinct` | src/pages/VehicleManagement.tsx:27-88 | the seeded vehicles have pairwise different ids |
| `Vehicles.ReachableIdsDistinct` | src/pages/VehicleManagement.tsx:27-88 | every state reachable from the initial screen has pairwise different vehicle ids |
| `Vehicles.ReachableEditWithoutChanges` | src/pages/VehicleManagement.tsx:139-147 | in every reachable state, editing a listed vehicle without changes and committing is the identity on the list |
| `Vehicles.StatCardsBounded` | src/pages/VehicleManagement.tsx:168-170 | active plus suspended vehicles never exceed the total, which is the list length |
| `Vehicles.TotalVehicles` | src/pages/VehicleManagement.tsx:168 | the active and suspended cards together never exceed the total card |
| `Vehicles.ActiveVehicles` | src/pages/VehicleManagement.tsx:169 | the active count is at most the total and is zero exactly when no vehicle has status Active |
| `Vehicles.SuspendedVehicles` | src/pages/VehicleManagement.tsx:170 | the suspended count is at most the total and is zero exactly when no vehicle has status Suspended |
| `Vehicles.SeedStatCards` | src/pages/VehicleManagement.tsx:168-170 | the seeded screen shows 5 vehicles, 3 active and 1 suspended |

## Left out

- Rendering, dialogs, tables, badges, icons and `getStatusColor`: these are presentation only.
- Toast notifications: these are presentation only. A rejection is modelled as the unchanged screen.
- `src/pages/Analytics.tsx` and `src/pages/Dashboard.tsx`: they hold hard-coded display data. `src/components/*` is the layout and routing shell.
- The fine's date comes from a clock read (`new Date().toISOString()`), so it is the parameter `today`.
- Text.Lower: folds ASCII letters only; Unicode case mapping in `toLowerCase` is not modelled.
- Text.ParseInt: skips ASCII whitespace only and does not model the `0x` hexadecimal prefix. The amount input is a number field, which never yields either.
- Text.ParseInt: returns an exact integer, while `parseInt` returns a double. Digit strings above 2^53 are rounded by the source ("9007199254740993" gives 9007199254740992), and "-0" gives negative zero. A number field can produce such strings, so amounts that large are stored exactly in the model but rounded in the source.
- Text.ParseIntOfDigits: states the exact value for every digit run; in the source a run above 2^53 is rounded to the nearest double, for the reason above.
- Text.ParseIntOfNatToString: states the round trip for every n; in the source it holds only for n up to 2^53, for the rounding reason above.
- Ids.FreshId: keeps a new id unique among the records currently listed only. Never reusing an id within a session would need a counter kept in the screen state, which the source does not have.
- Text.NatToString: does not model the exponent form `String` uses from 10^21 on. List lengths never get near that.
- Toll rates: `parseFloat` and `toString` are floating point, so a toll stores the decimal text of its rate. The seed rates are written as `toString` prints them ("5.5", "6"). `toFixed` and `toLocaleString` are display formatting.
- Tolls.FromForm, Tolls.UpdateTolls: the stored rate text is not normalised. Typing "5.50" stores 5.5 in the source, so the edit form later shows "5.5"; the model stores and shows "5.50".
- The search-box and form-field `onChange` setters of the fine and toll screens: each only replaces one field of the `Screen` value. They are modelled as events only on the vehicle screen.
- The fine screen's add-dialog `onOpenChange` only sets the open flag, and its "Filter" button has no handler.
- React's batching of `useState` updates: each handler is modelled as one atomic state change.

## Findings

| source | as written | input that shows it | evidently intended | confidence | as-written member | corrected member |
|---|---|---|---|---|---|---|
| src/pages/FineManagement.tsx:63 | the new fine's id is `F` + padStart(fines.length + 1, 3, '0') | seed fines F001–F005; delete F002; add any complete form: the new fine is F005, and F005 is still listed | each new id is unused: one past the largest id in use | high (not executed) | `Fines.DuplicateIdAfterDeleteThenAdd` | `Fines.AddFineFresh` |
| src/pages/TollManagement.tsx:65 | the new toll's id is `T` + padStart(tolls.length + 1, 3, '0') | seed tolls T001–T005; delete T002; add any complete form: the new toll is T005, and T005 is still listed. Then an untouched edit of the new T005 also overwrites the seeded Airport Access toll (lines 93-104), and deleting T005 removes both (line 114); see `Tolls.SharedIdEditAndDelete` | each new id is unused: one past the largest id in use | high (not executed) | `Tolls.DuplicateIdAfterDeleteThenAdd` | `Tolls.HandleAddFresh` |

The screen functions `Fines.AddFine`, `Tolls.HandleAdd` and `Tolls.Submit` keep the source's rule. `FreshId` makes a new id unique among the records currently listed, not over the whole session: after deleting the record with the highest ordinal (F005 from the seed, say), the next add mints that id again. The corrected functions have the same contract, with the id freshness added. `Fines.AddFineFreshAgreesWithoutDeletes` shows that both rules agree until the first delete.

=== FILE: collection.dfy ===
/**
  The array operations the three screens share: `filter` (search, delete
  and status counts), `reduce` with `+` (revenue total), and the notion of
  a list whose records have pairwise different ids.
*/
module Collection {

  /** `r` is `xs` with some elements deleted and the rest in their original order. */
  predicate IsSubseq<T(==)>(r: seq<T>, xs: seq<T>)
    decreases |xs|
  {
    if |r| == 0 then true
    else if |xs| == 0 then false
    else (r[0] == xs[0] && IsSubseq(r[1..], xs[1..])) || IsSubseq(r, xs[1..])
  }

  function Not<T>(p: T -> bool): T -> bool {
    x => !p(x)
  }

  /** `xs.filter(p)`. */
  function Filter<T(==)>(xs: seq<T>, p: T -> bool): (r: seq<T>)
    ensures IsSubseq(r, xs)
    ensures forall i :: 0 <= i < |r| ==> p(r[i])
    decreases |xs|
  {
    if |xs| == 0 then
      []
    else
      var rest := Filter(xs[1..], p);
      if p(xs[0]) then [xs[0]] + rest else rest
  }

  /** An element survives the filter exactly when it is in the list and satisfies the predicate. */
  lemma {:induction false} FilterMembers<T(!new)>(xs: seq<T>, p: T -> bool)
    ensures forall x :: x in Filter(xs, p) <==> x in xs && p(x)
    decreases |xs|
  {
    if |xs| > 0 {
      FilterMembers(xs[1..], p);
      assert xs == [xs[0]] + xs[1..];
    }
  }

  /** Every element satisfying the predicate is kept with all its copies; no other element is kept. */
  lemma {:induction false} FilterMultiset<T(!new)>(xs: seq<T>, p: T -> bool)
    ensures forall x :: multiset(Filter(xs, p))[x] == if p(x) then multiset(xs)[x] else 0
    decreases |xs|
  {
    if |xs| > 0 {
      FilterMultiset(xs[1..], p);
      assert xs == [xs[0]] + xs[1..];
    }
  }

  /** The filter keeps nothing exactly when no element satisfies the predicate. */
  lemma FilterEmpty<T(!new)>(xs: seq<T>, p: T -> bool)
    ensures |Filter(xs, p)| == 0 <==> forall i :: 0 <= i < |xs| ==> !p(xs[i])
  {
    FilterMembers(xs, p);
    if |Filter(xs, p)| > 0 {
      assert Filter(xs, p)[0] in Filter(xs, p);
    }
    if |Filter(xs, p)| == 0 {
      forall i | 0 <= i < |xs| ensures !p(xs[i]) {
        assert xs[i] in xs;
      }
    }
  }

  lemma {:induction false} FilterLength<T(!new)>(xs: seq<T>, p: T -> bool)
    ensures |Filter(xs, p)| <= |xs|
    decreases |xs|
  {
    if |xs| > 0 {
      FilterLength(xs[1..], p);
    }
  }

  /** Predicates that agree on every element filter alike. */
  lemma {:induction false} FilterCongruent<T(!new)>(xs: seq<T>, p: T -> bool, q: T -> bool)
    requires forall i :: 0 <= i < |xs| ==> p(xs[i]) == q(xs[i])
    ensures Filter(xs, p) == Filter(xs, q)
    decreases |xs|
  {
    if |xs| > 0 {
      FilterCongruent(xs[1..], p, q);
    }
  }

  /** A filter whose predicate holds everywhere is the identity. */
  lemma {:induction false} FilterKeepsAll<T(!new)>(xs: seq<T>, p: T -> bool)
    requires forall i :: 0 <= i < |xs| ==> p(xs[i])
    ensures Filter(xs, p) == xs
    decreases |xs|
  {
    if |xs| > 0 {
      FilterKeepsAll(xs[1..], p);
    }
  }

  /** Filtering a concatenation filters each part. */
  lemma {:induction false} FilterAppend<T(!new)>(xs: seq<T>, ys: seq<T>, p: T -> bool)
    ensures Filter(xs + ys, p) == Filter(xs, p) + Filter(ys, p)
    decreases |xs|
  {
    if |xs| == 0 {
      assert xs + ys == ys;
    } else {
      FilterAppend(xs[1..], ys, p);
      assert (xs + ys)[1..] == xs[1..] + ys;
    }
  }

  /** One step of the filter: the head is kept exactly when it satisfies `p`. */
  lemma FilterCons<T(!new)>(xs: seq<T>, p: T -> bool)
    requires |xs| > 0
    ensures p(xs[0]) ==> Filter(xs, p) == [xs[0]] + Filter(xs[1..], p)
    ensures !p(xs[0]) ==> Filter(xs, p) == Filter(xs[1..], p)
  {
  }

  /** Cutting `xs` around position `k > 0` is cutting its tail around `k - 1`. */
  lemma SplitAround<T>(xs: seq<T>, k: nat)
    requires 0 < k < |xs|
    ensures xs[..k] + xs[k + 1..] == [xs[0]] + (xs[1..][..k - 1] + xs[1..][k..])
  {
    var tail := xs[1..];
    assert xs[..k] == [xs[0]] + tail[..k - 1];
    assert xs[k + 1..] == tail[k..];
  }

  /** A filter that rejects exactly one position removes exactly that element. */
  lemma {:induction false} FilterDropsOne<T(!new)>(xs: seq<T>, k: nat, p: T -> bool)
    requires k < |xs| && !p(xs[k])
    requires forall i :: 0 <= i < |xs| && i != k ==> p(xs[i])
    ensures Filter(xs, p) == xs[..k] + xs[k + 1..]
    decreases k
  {
    var tail := xs[1..];
    FilterCons(xs, p);
    if k == 0 {
      FilterKeepsAll(tail, p);
    } else {
      assert tail[k - 1] == xs[k];
      FilterDropsOne(tail, k - 1, p);
      SplitAround(xs, k);
    }
  }

  /** Every element is kept either by `p` or by its negation. */
  lemma {:induction false} FilterComplementLength<T(!new)>(xs: seq<T>, p: T -> bool)
    ensures |Filter(xs, p)| + |Filter(xs, Not(p))| == |xs|
    decreases |xs|
  {
    if |xs| > 0 {
      FilterComplementLength(xs[1..], p);
    }
  }

  /** Two predicates that never hold together keep at most `|xs|` elements between them. */
  lemma {:induction false} FilterDisjointLength<T(!new)>(xs: seq<T>, p: T -> bool, q: T -> bool)
    requires forall i :: 0 <= i < |xs| ==> !(p(xs[i]) && q(xs[i]))
    ensures |Filter(xs, p)| + |Filter(xs, q)| <= |xs|
    decreases |xs|
  {
    if |xs| > 0 {
      FilterDisjointLength(xs[1..], p, q);
    }
  }

  /** `xs.reduce((sum, x) => sum + f(x), 0)`. */
  function SumOf<T>(xs: seq<T>, f: T -> int): int
    decreases |xs|
  {
    if |xs| == 0 then 0 else f(xs[0]) + SumOf(xs[1..], f)
  }

  lemma {:induction false} SumOfAppend<T>(xs: seq<T>, ys: seq<T>, f: T -> int)
    ensures SumOf(xs + ys, f) == SumOf(xs, f) + SumOf(ys, f)
    decreases |xs|
  {
    if |xs| > 0 {
      SumOfAppend(xs[1..], ys, f);
      assert (xs + ys)[1..] == xs[1..] + ys;
    } else {
      assert xs + ys == ys;
    }
  }

  /** Lists that agree on `f` position by position have the same sum. */
  lemma {:induction false} SumOfPointwise<T>(xs: seq<T>, ys: seq<T>, f: T -> int)
    requires |xs| == |ys|
    requires forall i :: 0 <= i < |xs| ==> f(xs[i]) == f(ys[i])
    ensures SumOf(xs, f) == SumOf(ys, f)
    decreases |xs|
  {
    if |xs| > 0 {
      SumOfPointwise(xs[1..], ys[1..], f);
    }
  }

  /** A sum of non-negative terms is non-negative. */
  lemma {:induction false} SumOfNonNegative<T>(xs: seq<T>, f: T -> int)
    ensures (forall i :: 0 <= i < |xs| ==> f(xs[i]) >= 0) ==> SumOf(xs, f) >= 0
    decreases |xs|
  {
    if |xs| > 0 && forall i :: 0 <= i < |xs| ==> f(xs[i]) >= 0 {
      assert forall i :: 0 <= i < |xs[1..]| ==> xs[1..][i] == xs[i + 1];
      SumOfNonNegative(xs[1..], f);
    }
  }

  /** The sum splits over the elements a filter keeps and the ones it drops. */
  lemma {:induction false} SumOfFilterSplit<T(!new)>(xs: seq<T>, p: T -> bool, f: T -> int)
    ensures SumOf(xs, f) == SumOf(Filter(xs, p), f) + SumOf(Filter(xs, Not(p)), f)
    decreases |xs|
  {
    if |xs| > 0 {
      SumOfFilterSplit(xs[1..], p, f);
      var rest, restNot := Filter(xs[1..], p), Filter(xs[1..], Not(p));
      if p(xs[0]) {
        assert ([xs[0]] + rest)[1..] == rest;
      } else {
        assert ([xs[0]] + restNot)[1..] == restNot;
      }
    }
  }

  /** The keys of `xs`, position by position (`xs.map(key)`). */
  function Keys<T>(xs: seq<T>, key: T -> string): (ks: seq<string>)
    ensures |ks| == |xs|
    ensures forall i :: 0 <= i < |xs| ==> ks[i] == key(xs[i])
  {
    seq(|xs|, i requires 0 <= i < |xs| => key(xs[i]))
  }

  /** No two positions of `xs` carry the same key. */
  predicate DistinctKeys<T>(xs: seq<T>, key: T -> string) {
    forall i, j :: 0 <= i < j < |xs| ==> key(xs[i]) != key(xs[j])
  }

  lemma {:induction false} SubseqMembers<T>(r: seq<T>, xs: seq<T>)
    requires IsSubseq(r, xs)
    ensures forall x :: x in r ==> x in xs
    decreases |xs|
  {
    if |r| > 0 {
      if r[0] == xs[0] && IsSubseq(r[1..], xs[1..]) {
        SubseqMembers(r[1..], xs[1..]);
        assert r == [r[0]] + r[1..];
      } else {
        SubseqMembers(r, xs[1..]);
      }
    }
  }

  /** Deleting elements cannot make two keys equal. */
  lemma {:induction false} SubseqDistinctKeys<T>(r: seq<T>, xs: seq<T>, key: T -> string)
    requires IsSubseq(r, xs) && DistinctKeys(xs, key)
    ensures DistinctKeys(r, key)
    decreases |xs|
  {
    if |r| > 0 {
      assert DistinctKeys(xs[1..], key) by {
        forall i, j | 0 <= i < j < |xs[1..]| ensures key(xs[1..][i]) != key(xs[1..][j]) {
          assert xs[1..][i] == xs[i + 1] && xs[1..][j] == xs[j + 1];
        }
      }
      if r[0] == xs[0] && IsSubseq(r[1..], xs[1..]) {
        SubseqDistinctKeys(r[1..], xs[1..], key);
        SubseqMembers(r[1..], xs[1..]);
        forall i, j | 0 <= i < j < |r| ensures key(r[i]) != key(r[j]) {
          if i == 0 {
            assert r[j] == r[1..][j - 1];
            assert r[j] in r[1..];
            var k :| 0 <= k < |xs[1..]| && xs[1..][k] == r[j];
            assert xs[k + 1] == r[j];
          } else {
            assert r[i] == r[1..][i - 1] && r[j] == r[1..][j - 1];
          }
        }
      } else {
        SubseqDistinctKeys(r, xs[1..], key);
      }
    }
  }

  /** Appending an element keeps keys distinct exactly when they were distinct and its key is not yet in use. */
  lemma DistinctKeysAppend<T>(xs: seq<T>, x: T, key: T -> string)
    ensures DistinctKeys(xs + [x], key) <==>
      DistinctKeys(xs, key) && forall i :: 0 <= i < |xs| ==> key(xs[i]) != key(x)
  {
    var ys := xs + [x];
    if DistinctKeys(ys, key) {
      forall i | 0 <= i < |xs| ensures key(xs[i]) != key(x) {
        assert ys[i] == xs[i] && ys[|xs|] == x;
      }
    }
    if DistinctKeys(xs, key) && forall i :: 0 <= i < |xs| ==> key(xs[i]) != key(x) {
      forall i, j | 0 <= i < j < |ys| ensures key(ys[i]) != key(ys[j]) {
        assert ys[i] == xs[i];
        if j < |xs| {
          assert ys[j] == xs[j];
        }
      }
    }
    if DistinctKeys(ys, key) {
      forall i, j | 0 <= i < j < |xs| ensures key(xs[i]) != key(xs[j]) {
        assert ys[i] == xs[i] && ys[j] == xs[j];
      }
    }
  }

  /** Lists whose keys agree position by position are equally distinct. */
  lemma DistinctKeysPointwise<T>(xs: seq<T>, ys: seq<T>, key: T -> string)
    requires |xs| == |ys| && DistinctKeys(xs, key)
    requires forall i :: 0 <= i < |xs| ==> key(xs[i]) == key(ys[i])
    ensures DistinctKeys(ys, key)
  {
  }
}

=== FILE: fines.dfy ===
/**
  The fine management screen: a list of fines seeded with five records, a
  search box, and an add dialog whose form creates a fine with status
  "Pending". Fines can be deleted but not edited.
*/
module Fines {
  import opened Text
  import opened Collection
  import Ids

  datatype Fine = Fine(
    id: string,
    vehicleNumber: string,
    violationType: string,
    amount: Num,
    status: string,
    date: string,
    location: string)

  /** The add dialog's form buffer; every field holds the text as typed or picked. */
  datatype FineForm = FineForm(vehicleNumber: string, violationType: string, amount: string, location: string)

  /** The screen state: the fines, the search box, and the add dialog with its form. */
  datatype Screen = Screen(fines: seq<Fine>, searchTerm: string, addDialogOpen: bool, form: FineForm)

  const Prefix: char := 'F'
  const Pending: string := "Pending"
  const BlankForm: FineForm := FineForm("", "", "", "")

  const Seed: seq<Fine> := [
    Fine("F001", "ABC-123", "Speeding", Int(150), "Pending", "2024-01-15", "Highway 101"),
    Fine("F002", "XYZ-789", "Parking", Int(75), "Paid", "2024-01-14", "Downtown"),
    Fine("F003", "DEF-456", "Red Light", Int(200), "Pending", "2024-01-13", "Main St & 1st"),
    Fine("F004", "GHI-321", "No Seat Belt", Int(100), "Paid", "2024-01-12", "Park Ave"),
    Fine("F005", "JKL-654", "Speeding", Int(175), "Overdue", "2024-01-10", "Highway 205")
  ]

  const Initial: Screen := Screen(Seed, "", false, BlankForm)

  function IdOf(f: Fine): string {
    f.id
  }


  // ---------------------------------------------------------------- search

  /** A fine is shown when the term occurs, ignoring case, in its vehicle number, violation type or location. */
  predicate Matches(term: string, f: Fine) {
    MatchesAny(term, [f.vehicleNumber, f.violationType, f.location])
  }

  function MatchesTerm(term: string): Fine -> bool {
    f => Matches(term, f)
  }

  /** `filteredFines`: the fines the table shows for a search term. */
  function Visible(fines: seq<Fine>, term: string): (r: seq<Fine>)
    ensures IsSubseq(r, fines)
    ensures forall f :: f in r <==> (f in fines &&
      (Contains(Lower(f.vehicleNumber), Lower(term)) ||
       Contains(Lower(f.violationType), Lower(term)) ||
       Contains(Lower(f.location), Lower(term))))
    ensures forall f :: multiset(r)[f] == if Matches(term, f) then multiset(fines)[f] else 0
  {
    var r := Filter(fines, MatchesTerm(term));
    FilterMembers(fines, MatchesTerm(term));
    FilterMultiset(fines, MatchesTerm(term));
    assert forall f :: Matches(term, f) <==>
      (Contains(Lower(f.vehicleNumber), Lower(term)) ||
       Contains(Lower(f.violationType), Lower(term)) ||
       Contains(Lower(f.location), Lower(term))) by {
      forall f: Fine {
        MatchesAnyThree(term, f.vehicleNumber, f.violationType, f.location);
      }
    }
    r
  }

  /** An empty search box shows every fine, in order. */
  lemma VisibleEmptyTerm(fines: seq<Fine>)
    ensures Visible(fines, "") == fines
  {
    forall i | 0 <= i < |fines| ensures MatchesTerm("")(fines[i]) {
      MatchesAnyEmptyTerm([fines[i].vehicleNumber, fines[i].violationType, fines[i].location]);
    }
    FilterKeepsAll(fines, MatchesTerm(""));
  }

  /** The case of the search term does not matter. */
  lemma VisibleIgnoresCase(fines: seq<Fine>, term: string)
    ensures Visible(fines, term) == Visible(fines, Lower(term))
  {
    forall i | 0 <= i < |fines| ensures MatchesTerm(term)(fines[i]) == MatchesTerm(Lower(term))(fines[i]) {
      MatchesAnyIgnoresCase(term, [fines[i].vehicleNumber, fines[i].violationType, fines[i].location]);
    }
    FilterCongruent(fines, MatchesTerm(term), MatchesTerm(Lower(term)));
  }

  // ---------------------------------------------------------------- add

  /** The presence check: no form field may be the empty string. */
  predicate FormComplete(form: FineForm) {
    form.vehicleNumber != "" && form.violationType != "" && form.amount != "" && form.location != ""
  }

  /** The fine the form describes, given its id and the day it is recorded. */
  function FromForm(id: string, form: FineForm, today: string): (f: Fine)
    ensures f.id == id && MadeFrom(f, form, today)
  {
    Fine(id, form.vehicleNumber, form.violationType, ParseInt(form.amount), Pending, today, form.location)
  }

  /** The record `f` was made from `form` on `today`: typed fields copied, amount parsed, status "Pending". */
  predicate MadeFrom(f: Fine, form: FineForm, today: string) {
    && f.vehicleNumber == form.vehicleNumber
    && f.violationType == form.violationType
    && f.amount == ParseInt(form.amount)
    && f.location == form.location
    && f.status == Pending
    && f.date == today
  }

  /**
    `handleAddFine`: with an incomplete form nothing changes; otherwise the
    new fine is appended, with the id minted from the list length, and the
    form is cleared and the dialog closed. The clock read for the date is
    the parameter `today`.
  */
  function AddFine(s: Screen, today: string): (r: Screen)
    ensures !FormComplete(s.form) ==> r == s
    ensures FormComplete(s.form) ==>
      && |r.fines| == |s.fines| + 1
      && r.fines[..|s.fines|] == s.fines
      && r.fines[|s.fines|].id == Ids.NextId(Prefix, |s.fines|)
      && MadeFrom(r.fines[|s.fines|], s.form, today)
      && r.form == BlankForm
      && !r.addDialogOpen
      && r.searchTerm == s.searchTerm
    ensures r.fines == s.fines <==> !FormComplete(s.form)
  {
    if !FormComplete(s.form) then
      s
    else
      var f := FromForm(Ids.NextId(Prefix, |s.fines|), s.form, today);
      assert (s.fines + [f])[..|s.fines|] == s.fines;
      s.(fines := s.fines + [f], form := BlankForm, addDialogOpen := false)
  }

  /** From 999 fines on, the minted id carries the ordinal unpadded and is longer than four characters. */
  lemma AddFineLongIds(s: Screen, today: string)
    requires FormComplete(s.form) && |s.fines| >= 999
    ensures AddFine(s, today).fines[|s.fines|].id == "F" + NatToString(|s.fines| + 1)
    ensures |AddFine(s, today).fines[|s.fines|].id| > 4
  {
    Ids.NextIdNoTruncation(Prefix, |s.fines|);
  }

  /**
    An accepted add keeps ids distinct exactly when they were distinct and
    no fine already carries the id minted from the length.
  */
  lemma AddFineDistinctIff(s: Screen, today: string)
    requires FormComplete(s.form)
    ensures DistinctKeys(AddFine(s, today).fines, IdOf) <==>
      DistinctKeys(s.fines, IdOf) && forall i :: 0 <= i < |s.fines| ==> s.fines[i].id != Ids.NextId(Prefix, |s.fines|)
  {
    var f := AddFine(s, today).fines[|s.fines|];
    assert AddFine(s, today).fines == s.fines + [f];
    DistinctKeysAppend(s.fines, f, IdOf);
  }

  // ---------------------------------------------------------------- delete

  function IdIsNot(id: string): Fine -> bool {
    (f: Fine) => f.id != id
  }

  /** `handleDeleteFine`: keeps the fines whose id differs, in order; nothing else changes. */
  function DeleteFine(s: Screen, id: string): (r: Screen)
    ensures r == s.(fines := r.fines)
    ensures IsSubseq(r.fines, s.fines)
    ensures forall f :: f in r.fines <==> f in s.fines && f.id != id
    ensures forall f :: multiset(r.fines)[f] == if f.id != id then multiset(s.fines)[f] else 0
  {
    FilterMembers(s.fines, IdIsNot(id));
    FilterMultiset(s.fines, IdIsNot(id));
    s.(fines := Filter(s.fines, IdIsNot(id)))
  }

  /** Deleting an id no fine carries changes nothing. */
  lemma DeleteAbsentIsIdentity(s: Screen, id: string)
    requires forall i :: 0 <= i < |s.fines| ==> s.fines[i].id != id
    ensures DeleteFine(s, id) == s
  {
    FilterKeepsAll(s.fines, IdIsNot(id));
  }

  /** Deleting keeps ids pairwise different. */
  lemma DeleteKeepsIdsDistinct(s: Screen, id: string)
    requires DistinctKeys(s.fines, IdOf)
    ensures DistinctKeys(DeleteFine(s, id).fines, IdOf)
  {
    SubseqDistinctKeys(DeleteFine(s, id).fines, s.fines, IdOf);
  }

  // ---------------------------------------------------------------- ids

  lemma SeedIdsDistinct()
    ensures DistinctKeys(Seed, IdOf)
  {
  }

  /** Deleting "F002" from the seed list leaves the other four fines. */
  lemma DeleteF002FromSeed()
    ensures Filter(Seed, IdIsNot("F002")) == [Seed[0], Seed[2], Seed[3], Seed[4]]
  {
    var p := IdIsNot("F002");
    FilterDropsOne(Seed, 1, p);
  }

  /** The id minted for a list of four fines. */
  lemma FourthMintedId()
    ensures Ids.NextId(Prefix, 4) == "F005"
  {
    assert NatToString(5) == "5";
    assert PadStart("5", Ids.Width, '0') == "005";
  }

  /**
    The seed list minus F002 has four fines, so the next add mints "F005"
    again, while the seeded F005 is still in the list.
  */
  lemma DuplicateIdAfterDeleteThenAdd(form: FineForm, today: string)
    requires FormComplete(form)
    ensures var deleted := DeleteFine(Initial, "F002");
            var added := AddFine(deleted.(form := form), today);
            && DistinctKeys(deleted.fines, IdOf)
            && |added.fines| == 5
            && added.fines[3].id == "F005"
            && added.fines[4].id == "F005"
            && !DistinctKeys(added.fines, IdOf)
  {
    SeedIdsDistinct();
    DeleteKeepsIdsDistinct(Initial, "F002");
    DeleteF002FromSeed();
    FourthMintedId();
    var added := AddFine(DeleteFine(Initial, "F002").(form := form), today);
    assert added.fines[3] == Seed[4];
    assert IdOf(added.fines[3]) == IdOf(added.fines[4]);
  }

  // ---------------------------------------------------------------- corrected add

  lemma FreshIdUnused(fines: seq<Fine>)
    ensures forall i :: 0 <= i < |fines| ==> IdOf(fines[i]) != Ids.FreshId(Prefix, Keys(fines, IdOf))
  {
    var ids := Keys(fines, IdOf);
    var id := Ids.FreshId(Prefix, ids);
    forall i | 0 <= i < |fines| ensures IdOf(fines[i]) != id {
      assert ids[i] in ids;
    }
  }

  /** `AddFine` with the id minted past the largest ordinal in use instead of from the length. */
  function AddFineFresh(s: Screen, today: string): (r: Screen)
    ensures !FormComplete(s.form) ==> r == s
    ensures FormComplete(s.form) ==>
      && |r.fines| == |s.fines| + 1
      && r.fines[..|s.fines|] == s.fines
      && r.fines[|s.fines|].id !in Keys(s.fines, IdOf)
      && MadeFrom(r.fines[|s.fines|], s.form, today)
      && r.form == BlankForm
      && !r.addDialogOpen
      && r.searchTerm == s.searchTerm
    ensures DistinctKeys(s.fines, IdOf) ==> DistinctKeys(r.fines, IdOf)
  {
    if !FormComplete(s.form) then
      s
    else
      var id := Ids.FreshId(Prefix, Keys(s.fines, IdOf));
      var f := FromForm(id, s.form, today);
      var fines := s.fines + [f];
      assert fines[..|s.fines|] == s.fines;
      FreshIdUnused(s.fines);
      DistinctKeysAppend(s.fines, f, IdOf);
      s.(fines := fines, form := BlankForm, addDialogOpen := false)
  }

  /** Without deletions the corrected rule mints the same id as the source. */
  lemma AddFineFreshAgreesWithoutDeletes(s: Screen, today: string)
    requires forall i :: 0 <= i < |s.fines| ==> s.fines[i].id == Ids.NextId(Prefix, i)
    ensures AddFineFresh(s, today) == AddFine(s, today)
  {
    var ks := Keys(s.fines, IdOf);
    Ids.FreshIdAgreesWithoutDeletes(Prefix, ks);
    if FormComplete(s.form) {
      var f := FromForm(Ids.NextId(Prefix, |s.fines|), s.form, today);
      var r := s.(fines := s.fines + [f], form := BlankForm, addDialogOpen := false);
      assert AddFine(s, today) == r;
      assert AddFineFresh(s, today) == r;
    }
  }

  /** On the scenario of `DuplicateIdAfterDeleteThenAdd` the corrected rule mints "F006". */
  lemma FreshIdAfterDeleteThenAdd(form: FineForm, today: string)
    requires FormComplete(form)
    ensures var deleted := DeleteFine(Initial, "F002");
            var added := AddFineFresh(deleted.(form := form), today);
            && DistinctKeys(added.fines, IdOf)
            && |added.fines| == 5
            && added.fines[4].id == "F006"
  {
    SeedIdsDistinct();
    DeleteKeepsIdsDistinct(Initial, "F002");
    var s := DeleteFine(Initial, "F002").(form := form);
    IdsAfterDeletingF002();
    FreshIdAfterF005();
    AddFineFreshId(s, today);
  }

  /** The id the corrected add gives the new fine. */
  lemma AddFineFreshId(s: Screen, today: string)
    requires FormComplete(s.form)
    ensures AddFineFresh(s, today).fines[|s.fines|].id == Ids.FreshId(Prefix, Keys(s.fines, IdOf))
  {
  }

  /** The ids left after deleting F002 from the seed. */
  lemma IdsAfterDeletingF002()
    ensures Keys(DeleteFine(Initial, "F002").fines, IdOf) == ["F001", "F003", "F004", "F005"]
  {
    DeleteF002FromSeed();
    KeysWithoutF002();
  }

  lemma KeysWithoutF002()
    ensures Keys([Seed[0], Seed[2], Seed[3], Seed[4]], IdOf) == ["F001", "F003", "F004", "F005"]
  {
    var ks := Keys([Seed[0], Seed[2], Seed[3], Seed[4]], IdOf);
    assert ks[0] == "F001" && ks[1] == "F003" && ks[2] == "F004" && ks[3] == "F005";
  }

  /** The corrected rule on the ids F001, F003, F004, F005. */
  lemma FreshIdAfterF005()
    ensures Ids.FreshId(Prefix, ["F001", "F003", "F004", "F005"]) == "F006"
  {
    LargestOrdinalWithoutF002();
    FifthMintedId();
  }

  lemma LargestOrdinalWithoutF002()
    ensures Ids.MaxOrdinal(["F001", "F003", "F004", "F005"]) == 5
  {
    var ks := ["F001", "F003", "F004", "F005"];
    Ids.FourCharOrdinal(ks[0]);
    Ids.FourCharOrdinal(ks[1]);
    Ids.FourCharOrdinal(ks[2]);
    Ids.FourCharOrdinal(ks[3]);
    assert forall i :: 0 <= i < 3 ==> Ids.Ordinal(ks[i]).value < 5;
  }

  /** The id minted for a list of five fines. */
  lemma FifthMintedId()
    ensures Ids.NextId(Prefix, 5) == "F006"
  {
    assert NatToString(6) == "6";
    assert PadStart("6", Ids.Width, '0') == "006";
  }
}

=== FILE: ids.dfy ===
/**
  Record ids: a one-letter prefix and a zero-padded ordinal ("F001",
  "T012"). The screens mint the id of a new record from the LENGTH of the
  list it is appended to; `FreshId` is the minting rule that keeps ids
  unique after deletions. It guarantees uniqueness among the ids currently
  in use only: once the record with the highest ordinal is deleted, its id
  can be minted again.
*/
module Ids {
  import opened Text
  import opened Wrappers

  /** The width `padStart` pads the ordinal to. */
  const Width: nat := 3

  /** The number after the prefix, when everything after the prefix is digits. */
  function Ordinal(id: string): Option<nat> {
    if |id| >= 2 && AllDigits(id[1..]) then Some(DigitsValue(id[1..])) else None
  }

  /** The id the source gives a record appended to a list of `count` records. */
  function NextId(prefix: char, count: nat): (id: string)
    ensures |id| >= 1 + Width && id[0] == prefix
    ensures count < 999 <==> |id| == 1 + Width
    ensures Ordinal(id) == Some(count + 1)
  {
    var digits := NatToString(count + 1);
    NatToStringLength(count + 1);
    var padded := PadStart(digits, Width, '0');
    PaddedValue(digits);
    assert ([prefix] + padded)[1..] == padded;
    [prefix] + padded
  }

  /** Zero-padding a digit string keeps it a digit string of the same value. */
  lemma PaddedValue(digits: string)
    requires AllDigits(digits)
    ensures AllDigits(PadStart(digits, Width, '0'))
    ensures DigitsValue(PadStart(digits, Width, '0')) == DigitsValue(digits)
  {
    var padded := PadStart(digits, Width, '0');
    var k := |padded| - |digits|;
    assert padded == seq(k, _ => '0') + digits;
    LeadingZerosValue(k, digits);
  }

  /** Once the ordinal needs four digits, padding leaves it as it is: ids grow past four characters. */
  lemma NextIdNoTruncation(prefix: char, count: nat)
    requires count >= 999
    ensures NextId(prefix, count) == [prefix] + NatToString(count + 1)
    ensures |NextId(prefix, count)| > 1 + Width
  {
    NatToStringLength(count + 1);
  }

  /** The ordinal of a four-character id such as "F005" is the value of its three digits. */
  lemma FourCharOrdinal(id: string)
    requires |id| == 1 + Width && IsDigit(id[1]) && IsDigit(id[2]) && IsDigit(id[3])
    ensures Ordinal(id) == Some(100 * DigitValue(id[1]) + 10 * DigitValue(id[2]) + DigitValue(id[3]))
  {
    var d := id[1..];
    assert AllDigits(d);
    var two, one: string := d[..2], d[..1];
    assert two[..1] == one && one[..0] == [];
    assert DigitsValue(one) == DigitValue(id[1]);
    assert DigitsValue(two) == DigitsValue(one) * 10 + DigitValue(id[2]);
    assert DigitsValue(d) == DigitsValue(two) * 10 + DigitValue(id[3]);
  }

  /** The largest ordinal among `ids`, 0 for none. */
  function MaxOrdinal(ids: seq<string>): (m: nat)
    ensures forall i :: 0 <= i < |ids| && Ordinal(ids[i]).Some? ==> Ordinal(ids[i]).value <= m
    ensures m == 0 || exists i :: 0 <= i < |ids| && Ordinal(ids[i]) == Some(m)
    decreases |ids|
  {
    if |ids| == 0 then
      0
    else
      var rest := MaxOrdinal(ids[1..]);
      assert forall i :: 1 <= i < |ids| ==> ids[i] == ids[1..][i - 1];
      var o := Ordinal(ids[0]);
      if o.Some? && o.value > rest then o.value else rest
  }

  /** An id whose ordinal is one past every ordinal in use: never one of `ids`. */
  function FreshId(prefix: char, ids: seq<string>): (id: string)
    ensures id !in ids
    ensures |id| > 0 && id[0] == prefix
    ensures Ordinal(id).Some?
    ensures forall i :: 0 <= i < |ids| && Ordinal(ids[i]).Some? ==> Ordinal(ids[i]).value < Ordinal(id).value
  {
    var m := MaxOrdinal(ids);
    var id := NextId(prefix, m);
    assert forall i :: 0 <= i < |ids| ==> Ordinal(ids[i]) != Some(m + 1);
    id
  }

  /** When the ordinals are exactly 1, 2, ..., |ids|, the largest is |ids|. */
  lemma MaxOrdinalOfMinted(ids: seq<string>)
    requires forall i :: 0 <= i < |ids| ==> Ordinal(ids[i]) == Some(i + 1)
    ensures MaxOrdinal(ids) == |ids|
  {
    var m := MaxOrdinal(ids);
    if |ids| > 0 {
      assert Ordinal(ids[|ids| - 1]) == Some(|ids|);
    }
    if m != 0 {
      var i :| 0 <= i < |ids| && Ordinal(ids[i]) == Some(m);
    }
  }

  /** Before anything is deleted (ids are exactly the minted sequence), both rules mint the same id. */
  lemma FreshIdAgreesWithoutDeletes(prefix: char, ids: seq<string>)
    requires forall i :: 0 <= i < |ids| ==> ids[i] == NextId(prefix, i)
    ensures FreshId(prefix, ids) == NextId(prefix, |ids|)
  {
    forall i | 0 <= i < |ids| ensures Ordinal(ids[i]) == Some(i + 1) {
      assert ids[i] == NextId(prefix, i);
    }
    MaxOrdinalOfMinted(ids);
  }
}

=== FILE: text.dfy ===
/**
  The string primitives the management screens rely on: `toLowerCase`
  (as an ASCII case fold), `includes`, `padStart`, `String(n)` for a
  non-negative integer, and `parseInt` without a radix.
*/
module Text {

  /** A JavaScript number as produced by `parseInt`: an integer or NaN. */
  datatype Num = Int(n: int) | NaN

  predicate IsUpper(c: char) {
    'A' <= c <= 'Z'
  }

  predicate IsDigit(c: char) {
    '0' <= c <= '9'
  }

  /** The whitespace `parseInt` skips (the ASCII part of it). */
  predicate IsSpace(c: char) {
    c == ' ' || c == '\t' || c == '\n' || c == '\r' || c == '\U{000B}' || c == '\U{000C}'
  }

  predicate AllDigits(s: string) {
    forall i :: 0 <= i < |s| ==> IsDigit(s[i])
  }

  function LowerChar(c: char): (r: char)
    ensures !IsUpper(r)
    ensures IsUpper(c) ==> r as int == c as int + 32
    ensures !IsUpper(c) ==> r == c
  {
    if IsUpper(c) then (c as int + 32) as char else c
  }

  /** `s.toLowerCase()` restricted to ASCII letters. */
  function Lower(s: string): (r: string)
    ensures |r| == |s|
    ensures forall i :: 0 <= i < |r| ==> !IsUpper(r[i])
    ensures forall i :: 0 <= i < |r| ==> IsUpper(s[i]) ==> r[i] as int == s[i] as int + 32
    ensures forall i :: 0 <= i < |r| ==> !IsUpper(s[i]) ==> r[i] == s[i]
  {
    seq(|s|, i requires 0 <= i < |s| => LowerChar(s[i]))
  }

  /** Lower-casing twice is lower-casing once. */
  lemma LowerIdempotent(s: string)
    ensures Lower(Lower(s)) == Lower(s)
  {
  }

  predicate IsPrefix(p: string, s: string) {
    |p| <= |s| && s[..|p|] == p
  }

  /** `needle` occurs in `hay` starting at position `i`. */
  predicate OccursAt(hay: string, needle: string, i: int) {
    0 <= i <= |hay| - |needle| && hay[i..i + |needle|] == needle
  }

  /** `hay.includes(needle)`: tries the start positions left to right. */
  function Contains(hay: string, needle: string): (b: bool)
    ensures b <==> exists i :: OccursAt(hay, needle, i)
    decreases |hay|
  {
    if IsPrefix(needle, hay) then
      assert OccursAt(hay, needle, 0);
      true
    else if |hay| <= |needle| then
      assert forall i :: !OccursAt(hay, needle, i);
      false
    else
      OccursInTail(hay, needle);
      Contains(hay[1..], needle)
  }

  /** Past position 0, an occurrence in `hay` is an occurrence in its tail. */
  lemma OccursInTail(hay: string, needle: string)
    requires |hay| > 0 && !IsPrefix(needle, hay)
    ensures (exists i :: OccursAt(hay, needle, i)) <==> (exists j :: OccursAt(hay[1..], needle, j))
  {
    if j :| OccursAt(hay[1..], needle, j) {
      assert hay[j + 1..j + 1 + |needle|] == hay[1..][j..j + |needle|];
      assert OccursAt(hay, needle, j + 1);
    }
    if i :| OccursAt(hay, needle, i) {
      assert i != 0;
      var t := hay[1..];
      var a, b := t[i - 1..i - 1 + |needle|], hay[i..i + |needle|];
      assert forall k :: 0 <= k < |needle| ==> a[k] == b[k];
      assert a == b;
      assert OccursAt(hay[1..], needle, i - 1);
    }
  }

  /** Every string includes the empty string. */
  lemma ContainsEmpty(hay: string)
    ensures Contains(hay, "")
  {
    assert OccursAt(hay, "", 0);
  }

  /**
    The search predicate shared by the three screens: the lower-cased
    term occurs in the lower-cased form of at least one field.
  */
  predicate MatchesAny(term: string, fields: seq<string>) {
    exists k :: 0 <= k < |fields| && Contains(Lower(fields[k]), Lower(term))
  }

  /** For three fields, matching any of them is the disjunction of the three matches. */
  lemma MatchesAnyThree(term: string, a: string, b: string, c: string)
    ensures MatchesAny(term, [a, b, c]) <==>
      Contains(Lower(a), Lower(term)) || Contains(Lower(b), Lower(term)) || Contains(Lower(c), Lower(term))
  {
    var fields := [a, b, c];
    assert fields[0] == a && fields[1] == b && fields[2] == c;
  }

  lemma MatchesAnyEmptyTerm(fields: seq<string>)
    requires |fields| > 0
    ensures MatchesAny("", fields)
  {
    ContainsEmpty(Lower(fields[0]));
  }

  /** Matching ignores the case of the term. */
  lemma MatchesAnyIgnoresCase(term: string, fields: seq<string>)
    ensures MatchesAny(term, fields) <==> MatchesAny(Lower(term), fields)
  {
    LowerIdempotent(term);
  }

  /** `s.padStart(width, c)` for a one-character pad: pads on the left, never truncates. */
  function PadStart(s: string, width: nat, c: char): (r: string)
    ensures |r| == if |s| >= width then |s| else width
    ensures r[|r| - |s|..] == s
    ensures forall i :: 0 <= i < |r| - |s| ==> r[i] == c
  {
    if |s| >= width then s else seq(width - |s|, _ => c) + s
  }

  function DigitChar(d: nat): (c: char)
    requires d < 10
    ensures IsDigit(c)
  {
    ('0' as int + d) as char
  }

  function DigitValue(c: char): (d: nat)
    requires IsDigit(c)
    ensures d < 10
    ensures DigitChar(d) == c
  {
    c as int - '0' as int
  }

  /** The value of a decimal digit string; the empty string is 0. */
  function DigitsValue(s: string): nat
    requires AllDigits(s)
  {
    if |s| == 0 then 0 else DigitsValue(s[..|s| - 1]) * 10 + DigitValue(s[|s| - 1])
  }

  /** `String(n)` for a non-negative integer: decimal, no leading zero. */
  function NatToString(n: nat): (r: string)
    ensures |r| >= 1 && AllDigits(r)
    ensures r[0] != '0' || n == 0
    ensures DigitsValue(r) == n
    decreases n
  {
    if n < 10 then
      [DigitChar(n)]
    else
      var h := NatToString(n / 10);
      var r := h + [DigitChar(n % 10)];
      assert r[..|r| - 1] == h;
      r
  }

  /** A number below 1000 prints in at most three digits, and one of 1000 or more in at least four. */
  lemma {:induction false} NatToStringLength(n: nat)
    ensures n < 1000 <==> |NatToString(n)| <= 3
    ensures n < 10 <==> |NatToString(n)| == 1
  {
    if n >= 10 {
      NatToStringLength(n / 10);
    }
  }

  /** Leading zeros do not change the value of a digit string. */
  lemma {:induction false} LeadingZerosValue(k: nat, s: string)
    requires AllDigits(s)
    ensures AllDigits(seq(k, _ => '0') + s)
    ensures DigitsValue(seq(k, _ => '0') + s) == DigitsValue(s)
    decreases |s|, k
  {
    var z: string := seq(k, _ => '0');
    var t := z + s;
    assert forall i :: 0 <= i < |t| ==> IsDigit(t[i]) by {
      forall i | 0 <= i < |t| ensures IsDigit(t[i]) {
        if i < k { assert t[i] == '0'; } else { assert t[i] == s[i - k]; }
      }
    }
    if |s| == 0 {
      if k > 0 {
        LeadingZerosValue(k - 1, s);
        assert t[..|t| - 1] == seq(k - 1, _ => '0') + s;
      }
    } else {
      var s' := s[..|s| - 1];
      LeadingZerosValue(k, s');
      assert t[..|t| - 1] == z + s';
    }
  }

  /** The longest prefix of `s` made of decimal digits. */
  function LeadingDigits(s: string): (d: string)
    ensures AllDigits(d) && IsPrefix(d, s)
    ensures |d| < |s| ==> !IsDigit(s[|d|])
  {
    if |s| > 0 && IsDigit(s[0]) then [s[0]] + LeadingDigits(s[1..]) else []
  }

  function TrimStart(s: string): (r: string)
    ensures |r| <= |s| && r == s[|s| - |r|..]
    ensures |r| > 0 ==> !IsSpace(r[0])
    ensures forall i :: 0 <= i < |s| - |r| ==> IsSpace(s[i])
  {
    if |s| > 0 && IsSpace(s[0]) then TrimStart(s[1..]) else s
  }

  /**
    `parseInt(s)` without a radix: skip leading whitespace, read an optional
    sign, then the longest run of decimal digits; NaN when there is none.
  */
  function ParseInt(s: string): Num {
    var t := TrimStart(s);
    var negative := |t| > 0 && t[0] == '-';
    var u := if |t| > 0 && (t[0] == '-' || t[0] == '+') then t[1..] else t;
    var d := LeadingDigits(u);
    if |d| == 0 then NaN
    else if negative then Int(-(DigitsValue(d) as int))
    else Int(DigitsValue(d))
  }

  lemma {:induction false} LeadingDigitsOfDigits(s: string, rest: string)
    requires AllDigits(s)
    requires |rest| > 0 ==> !IsDigit(rest[0])
    ensures LeadingDigits(s + rest) == s
    decreases |s|
  {
    if |s| == 0 {
      assert s + rest == rest;
    } else {
      var t := s + rest;
      assert t[0] == s[0] && IsDigit(t[0]);
      assert t[1..] == s[1..] + rest;
      LeadingDigitsOfDigits(s[1..], rest);
      assert LeadingDigits(t) == [s[0]] + s[1..];
      assert [s[0]] + s[1..] == s;
    }
  }

  /** A run of digits followed by a non-digit parses to its value, leading zeros included. */
  lemma ParseIntOfDigits(ds: string, rest: string)
    requires |ds| > 0 && AllDigits(ds)
    requires |rest| > 0 ==> !IsDigit(rest[0])
    ensures ParseInt(ds + rest) == Int(DigitsValue(ds))
  {
    var t := ds + rest;
    assert t[0] == ds[0] && IsDigit(t[0]) && !IsSpace(t[0]);
    assert TrimStart(t) == t;
    assert t[0] != '-' && t[0] != '+';
    LeadingDigitsOfDigits(ds, rest);
    assert LeadingDigits(t) == ds;
  }

  /** `parseInt(String(n)) == n`, also when the digits are followed by a non-digit. */
  lemma ParseIntOfNatToString(n: nat, rest: string)
    requires |rest| > 0 ==> !IsDigit(rest[0])
    ensures ParseInt(NatToString(n) + rest) == Int(n)
  {
    ParseIntOfDigits(NatToString(n), rest);
  }

  /** Any string that starts with neither a digit, a sign nor whitespace parses to NaN. */
  lemma ParseIntNaN(s: string)
    requires |s| > 0 && !IsDigit(s[0]) && !IsSpace(s[0]) && s[0] != '-' && s[0] != '+'
    ensures ParseInt(s) == NaN
  {
  }
}

=== FILE: tolls.dfy ===
/**
  The toll management screen: a list of toll plazas, a search box, one
  dialog that either adds a toll or updates the toll being edited, delete
  buttons, and stat cards for total daily revenue, active tolls and tolls
  under maintenance.
*/
module Tolls {
  import opened Wrappers
  import opened Text
  import opened Collection
  import Ids

  /**
    A toll plaza. `rate` holds the decimal text of the rate (the source
    stores `parseFloat` of the typed text and shows it back with
    `toString`); `tollType` is the source's `type` field.
  */
  datatype Toll = Toll(
    id: string,
    name: string,
    location: string,
    rate: string,
    status: string,
    dailyRevenue: int,
    vehicles: int,
    tollType: string)

  /** The dialog's form buffer. */
  datatype TollForm = TollForm(name: string, location: string, rate: string, tollType: string, status: string)

  /**
    The screen state: the tolls, the search box, whether the dialog is
    open, the toll being edited (None in add mode), and the form.
  */
  datatype Screen = Screen(
    tolls: seq<Toll>,
    searchTerm: string,
    dialogOpen: bool,
    editing: Option<Toll>,
    form: TollForm)

  const Prefix: char := 'T'
  const Active: string := "Active"
  const BlankForm: TollForm := TollForm("", "", "", "", Active)

  const Seed: seq<Toll> := [
    Toll("T001", "Highway 101 North", "Mile 45.2", "5.5", "Active", 2340, 156, "Highway"),
    Toll("T002", "Bridge Crossing", "Downtown Bridge", "3.25", "Active", 1890, 98, "Bridge"),
    Toll("T003", "Downtown Tunnel", "City Center", "4.75", "Active", 3450, 203, "Tunnel"),
    Toll("T004", "Express Lane", "Highway 205", "6", "Maintenance", 0, 0, "Express"),
    Toll("T005", "Airport Access", "Terminal Road", "8.5", "Active", 4250, 98, "Airport")
  ]

  const Initial: Screen := Screen(Seed, "", false, None, BlankForm)

  function IdOf(t: Toll): string {
    t.id
  }


  // ---------------------------------------------------------------- search

  /** A toll is shown when the term occurs, ignoring case, in its name, location or type. */
  predicate Matches(term: string, t: Toll) {
    MatchesAny(term, [t.name, t.location, t.tollType])
  }

  function MatchesTerm(term: string): Toll -> bool {
    t => Matches(term, t)
  }

  /** `filteredTolls`: the tolls the table shows for a search term. */
  function Visible(tolls: seq<Toll>, term: string): (r: seq<Toll>)
    ensures IsSubseq(r, tolls)
    ensures forall t :: t in r <==> (t in tolls &&
      (Contains(Lower(t.name), Lower(term)) ||
       Contains(Lower(t.location), Lower(term)) ||
       Contains(Lower(t.tollType), Lower(term))))
    ensures forall t :: multiset(r)[t] == if Matches(term, t) then multiset(tolls)[t] else 0
  {
    var r := Filter(tolls, MatchesTerm(term));
    FilterMembers(tolls, MatchesTerm(term));
    FilterMultiset(tolls, MatchesTerm(term));
    assert forall t :: Matches(term, t) <==>
      (Contains(Lower(t.name), Lower(term)) ||
       Contains(Lower(t.location), Lower(term)) ||
       Contains(Lower(t.tollType), Lower(term))) by {
      forall t: Toll {
        MatchesAnyThree(term, t.name, t.location, t.tollType);
      }
    }
    r
  }

  /** An empty search box shows every toll, in order. */
  lemma VisibleEmptyTerm(tolls: seq<Toll>)
    ensures Visible(tolls, "") == tolls
  {
    forall i | 0 <= i < |tolls| ensures MatchesTerm("")(tolls[i]) {
      MatchesAnyEmptyTerm([tolls[i].name, tolls[i].location, tolls[i].tollType]);
    }
    FilterKeepsAll(tolls, MatchesTerm(""));
  }

  // ---------------------------------------------------------------- form

  /** The presence check shared by add and update; the status is not checked. */
  predicate FormComplete(form: TollForm) {
    form.name != "" && form.location != "" && form.rate != "" && form.tollType != ""
  }

  /** The form shows exactly the editable fields of `t`. */
  predicate Mirrors(form: TollForm, t: Toll) {
    && form.name == t.name
    && form.location == t.location
    && form.rate == t.rate
    && form.tollType == t.tollType
    && form.status == t.status
  }

  /** `resetForm`: blank form with status "Active", add mode, dialog closed. */
  function ResetForm(s: Screen): (r: Screen)
    ensures r.form == BlankForm && r.editing == None && !r.dialogOpen
    ensures r.tolls == s.tolls && r.searchTerm == s.searchTerm
    ensures !FormComplete(r.form)
  {
    s.(form := BlankForm, editing := None, dialogOpen := false)
  }

  /** Resetting twice is resetting once, and a reset never touches the tolls. */
  lemma ResetFormIdempotent(s: Screen)
    ensures ResetForm(ResetForm(s)) == ResetForm(s)
    ensures Submit(ResetForm(s)) == ResetForm(s)
  {
  }

  /** `openEditDialog`: edit mode on `t`, the form mirroring it, dialog open. */
  function OpenEditDialog(s: Screen, t: Toll): (r: Screen)
    ensures r.editing == Some(t) && r.dialogOpen && Mirrors(r.form, t)
    ensures r.tolls == s.tolls && r.searchTerm == s.searchTerm
  {
    s.(editing := Some(t), form := TollForm(t.name, t.location, t.rate, t.tollType, t.status), dialogOpen := true)
  }

  /** The dialog's `onOpenChange`: opening only shows it; closing also resets the form and leaves edit mode. */
  function SetDialogOpen(s: Screen, open: bool): (r: Screen)
    ensures r.dialogOpen == open && r.tolls == s.tolls && r.searchTerm == s.searchTerm
    ensures open ==> r.form == s.form && r.editing == s.editing
    ensures !open ==> r.form == BlankForm && r.editing == None
  {
    if open then s.(dialogOpen := true) else ResetForm(s)
  }

  /** Closing the dialog cancels an edit: the list is untouched and the next submit is an add. */
  lemma CloseCancelsEdit(s: Screen, t: Toll)
    ensures SetDialogOpen(OpenEditDialog(s, t), false).tolls == s.tolls
    ensures SetDialogOpen(OpenEditDialog(s, t), false).editing == None
  {
  }

  // ---------------------------------------------------------------- add

  /** The new toll the form describes: no revenue and no vehicles yet. */
  function FromForm(id: string, form: TollForm): (t: Toll)
    ensures Mirrors(form, t) && t.id == id
    ensures t.dailyRevenue == 0 && t.vehicles == 0
  {
    Toll(id, form.name, form.location, form.rate, form.status, 0, 0, form.tollType)
  }

  /**
    `handleAdd`: an incomplete form changes nothing; otherwise one toll is
    appended, with the id minted from the list length, and the form reset.
  */
  function HandleAdd(s: Screen): (r: Screen)
    ensures !FormComplete(s.form) ==> r == s
    ensures FormComplete(s.form) ==>
      && |r.tolls| == |s.tolls| + 1
      && r.tolls[..|s.tolls|] == s.tolls
      && r.tolls[|s.tolls|].id == Ids.NextId(Prefix, |s.tolls|)
      && Mirrors(s.form, r.tolls[|s.tolls|])
      && r.tolls[|s.tolls|].dailyRevenue == 0
      && r.tolls[|s.tolls|].vehicles == 0
      && r == ResetForm(s).(tolls := r.tolls)
    ensures r.tolls == s.tolls <==> !FormComplete(s.form)
  {
    if !FormComplete(s.form) then
      s
    else
      var t := FromForm(Ids.NextId(Prefix, |s.tolls|), s.form);
      assert (s.tolls + [t])[..|s.tolls|] == s.tolls;
      ResetForm(s.(tolls := s.tolls + [t]))
  }

  /**
    An accepted add keeps ids distinct exactly when they were distinct and
    no toll already carries the id minted from the length.
  */
  lemma HandleAddDistinctIff(s: Screen)
    requires FormComplete(s.form)
    ensures DistinctKeys(HandleAdd(s).tolls, IdOf) <==>
      DistinctKeys(s.tolls, IdOf) && forall i :: 0 <= i < |s.tolls| ==> s.tolls[i].id != Ids.NextId(Prefix, |s.tolls|)
  {
    var t := HandleAdd(s).tolls[|s.tolls|];
    assert HandleAdd(s).tolls == s.tolls + [t];
    DistinctKeysAppend(s.tolls, t, IdOf);
  }

  /** The blank form's default status is "Active", so a toll added without touching the status is active. */
  lemma AddDefaultsToActive(s: Screen)
    requires FormComplete(s.form) && s.form.status == BlankForm.status
    ensures HandleAdd(s).tolls[|s.tolls|].status == Active
  {
  }

  // ---------------------------------------------------------------- update

  /** The `tolls.map` of `handleUpdate`: tolls with id `id` take the form's editable fields. */
  function UpdateTolls(tolls: seq<Toll>, id: string, form: TollForm): (r: seq<Toll>)
    ensures |r| == |tolls|
    ensures forall i :: 0 <= i < |tolls| && tolls[i].id != id ==> r[i] == tolls[i]
    ensures forall i :: 0 <= i < |tolls| && tolls[i].id == id ==>
      && Mirrors(form, r[i])
      && r[i].id == tolls[i].id
      && r[i].dailyRevenue == tolls[i].dailyRevenue
      && r[i].vehicles == tolls[i].vehicles
  {
    seq(|tolls|, i requires 0 <= i < |tolls| =>
      var t := tolls[i];
      if t.id == id
      then t.(name := form.name, location := form.location, rate := form.rate, status := form.status, tollType := form.tollType)
      else t)
  }

  /**
    `handleUpdate`: rejected (nothing changes) when no toll is being edited
    or the form is incomplete; otherwise the edited toll's fields are
    replaced and the form reset.
  */
  function HandleUpdate(s: Screen): (r: Screen)
    ensures s.editing == None || !FormComplete(s.form) ==> r == s
    ensures s.editing != None && FormComplete(s.form) ==>
      && r.tolls == UpdateTolls(s.tolls, s.editing.value.id, s.form)
      && r == ResetForm(s).(tolls := r.tolls)
    ensures |r.tolls| == |s.tolls|
    ensures r == s <==> s.editing == None || !FormComplete(s.form)
  {
    if s.editing == None || !FormComplete(s.form) then
      s
    else
      ResetForm(s.(tolls := UpdateTolls(s.tolls, s.editing.value.id, s.form)))
  }

  /** The dialog's button: update in edit mode, add otherwise. */
  function Submit(s: Screen): (r: Screen)
    ensures !FormComplete(s.form) ==> r == s
    ensures s.editing != None && FormComplete(s.form) ==> r.tolls == UpdateTolls(s.tolls, s.editing.value.id, s.form)
    ensures s.editing == None && FormComplete(s.form) ==>
      r.tolls == s.tolls + [FromForm(Ids.NextId(Prefix, |s.tolls|), s.form)]
    ensures FormComplete(s.form) ==> r == ResetForm(s).(tolls := r.tolls)
    ensures s.editing != None ==> |r.tolls| == |s.tolls|
    ensures s.editing == None && FormComplete(s.form) ==> |r.tolls| == |s.tolls| + 1
  {
    if s.editing != None then HandleUpdate(s) else HandleAdd(s)
  }

  /** An update keeps every id in place, so ids that were distinct stay distinct. */
  lemma UpdateKeepsIds(s: Screen)
    ensures Keys(HandleUpdate(s).tolls, IdOf) == Keys(s.tolls, IdOf)
    ensures DistinctKeys(s.tolls, IdOf) ==> DistinctKeys(HandleUpdate(s).tolls, IdOf)
  {
    var r := HandleUpdate(s).tolls;
    assert forall i :: 0 <= i < |s.tolls| ==> IdOf(s.tolls[i]) == IdOf(r[i]);
    if DistinctKeys(s.tolls, IdOf) {
      DistinctKeysPointwise(s.tolls, r, IdOf);
    }
  }

  /** Opening a listed toll for editing and submitting the untouched form leaves the list as it was. */
  lemma EditWithoutChangesIsIdentity(s: Screen, t: Toll)
    requires t in s.tolls && DistinctKeys(s.tolls, IdOf)
    ensures Submit(OpenEditDialog(s, t)).tolls == s.tolls
  {
    var e := OpenEditDialog(s, t);
    if FormComplete(e.form) {
      var r := UpdateTolls(s.tolls, t.id, e.form);
      var k :| 0 <= k < |s.tolls| && s.tolls[k] == t;
      forall i | 0 <= i < |s.tolls| ensures r[i] == s.tolls[i] {
        if s.tolls[i].id == t.id {
          assert IdOf(s.tolls[i]) == IdOf(s.tolls[k]);
          assert i == k;
        }
      }
    }
  }

  /**
    Without assuming distinct ids: an untouched edit leaves the list as it
    was exactly when the form is rejected or every toll sharing the edited
    id already carries the edited toll's name, location, rate, type and
    status. A second toll with the same id is overwritten otherwise.
  */
  lemma EditWithoutChangesIff(s: Screen, t: Toll)
    ensures var e := OpenEditDialog(s, t);
            Submit(e).tolls == s.tolls <==>
              !FormComplete(e.form) ||
              forall k :: 0 <= k < |s.tolls| && s.tolls[k].id == t.id ==> Mirrors(e.form, s.tolls[k])
  {
    var e := OpenEditDialog(s, t);
    if FormComplete(e.form) {
      var r := UpdateTolls(s.tolls, t.id, e.form);
      assert Submit(e).tolls == r;
      if r == s.tolls {
        forall k | 0 <= k < |s.tolls| && s.tolls[k].id == t.id ensures Mirrors(e.form, s.tolls[k]) {
          assert r[k] == s.tolls[k];
        }
      }
      if forall k :: 0 <= k < |s.tolls| && s.tolls[k].id == t.id ==> Mirrors(e.form, s.tolls[k]) {
        forall k | 0 <= k < |s.tolls| ensures r[k] == s.tolls[k] {
          if s.tolls[k].id == t.id {
            assert Mirrors(e.form, s.tolls[k]);
          }
        }
      }
    }
  }

  // ---------------------------------------------------------------- delete

  function IdIsNot(id: string): Toll -> bool {
    (t: Toll) => t.id != id
  }

  /** `handleDelete`: keeps the tolls whose id differs, in order; nothing else changes. */
  function HandleDelete(s: Screen, id: string): (r: Screen)
    ensures r == s.(tolls := r.tolls)
    ensures IsSubseq(r.tolls, s.tolls)
    ensures forall t :: t in r.tolls <==> t in s.tolls && t.id != id
    ensures forall t :: multiset(r.tolls)[t] == if t.id != id then multiset(s.tolls)[t] else 0
  {
    FilterMembers(s.tolls, IdIsNot(id));
    FilterMultiset(s.tolls, IdIsNot(id));
    s.(tolls := Filter(s.tolls, IdIsNot(id)))
  }

  /** Deleting an id no toll carries changes nothing. */
  lemma DeleteAbsentIsIdentity(s: Screen, id: string)
    requires forall i :: 0 <= i < |s.tolls| ==> s.tolls[i].id != id
    ensures HandleDelete(s, id) == s
  {
    FilterKeepsAll(s.tolls, IdIsNot(id));
  }

  // ---------------------------------------------------------------- stat cards

  function RevenueOf(t: Toll): int {
    t.dailyRevenue
  }

  predicate IsActive(t: Toll) {
    t.status == Active
  }

  /** `totalRevenue`: the sum of the daily revenues. */
  function TotalRevenue(tolls: seq<Toll>): (r: int)
    ensures (forall i :: 0 <= i < |tolls| ==> tolls[i].dailyRevenue >= 0) ==> r >= 0
    ensures |tolls| == 0 ==> r == 0
  {
    SumOfNonNegative(tolls, RevenueOf);
    SumOf(tolls, RevenueOf)
  }

  /** `activeTolls`: the number of tolls whose status is "Active". */
  function ActiveTolls(tolls: seq<Toll>): (n: nat)
    ensures n <= |tolls|
  {
    FilterLength(tolls, IsActive);
    |Filter(tolls, IsActive)|
  }

  /** The "Under Maintenance" card: every toll that is not "Active", whatever its status says. */
  function UnderMaintenance(tolls: seq<Toll>): (n: nat)
    ensures n == |Filter(tolls, Not(IsActive))|
    ensures n + ActiveTolls(tolls) == |tolls|
  {
    FilterComplementLength(tolls, IsActive);
    |tolls| - ActiveTolls(tolls)
  }

  /** A new toll earns nothing yet: adding never moves the revenue total. */
  lemma AddKeepsRevenue(s: Screen)
    ensures TotalRevenue(HandleAdd(s).tolls) == TotalRevenue(s.tolls)
  {
    var r := HandleAdd(s).tolls;
    if FormComplete(s.form) {
      assert r == s.tolls + [r[|s.tolls|]];
      SumOfAppend(s.tolls, [r[|s.tolls|]], RevenueOf);
    }
  }

  /** An update keeps every daily revenue, so the total stays. */
  lemma UpdateKeepsRevenue(s: Screen)
    ensures TotalRevenue(HandleUpdate(s).tolls) == TotalRevenue(s.tolls)
  {
    var r := HandleUpdate(s).tolls;
    assert forall i :: 0 <= i < |s.tolls| ==> RevenueOf(s.tolls[i]) == RevenueOf(r[i]);
    SumOfPointwise(s.tolls, r, RevenueOf);
  }

  /** After a delete the total drops by exactly the revenue of the deleted tolls. */
  lemma DeleteRevenue(s: Screen, id: string)
    ensures TotalRevenue(HandleDelete(s, id).tolls) + SumOf(Filter(s.tolls, Not(IdIsNot(id))), RevenueOf)
         == TotalRevenue(s.tolls)
  {
    SumOfFilterSplit(s.tolls, IdIsNot(id), RevenueOf);
  }

  // ---------------------------------------------------------------- ids

  lemma SeedIdsDistinct()
    ensures DistinctKeys(Seed, IdOf)
  {
  }

  /** The id minted for a list of four tolls. */
  lemma FourthMintedId()
    ensures Ids.NextId(Prefix, 4) == "T005"
  {
    assert NatToString(5) == "5";
    assert PadStart("5", Ids.Width, '0') == "005";
  }

  /** Deleting "T002" from the seed list leaves the other four tolls. */
  lemma DeleteT002FromSeed()
    ensures Filter(Seed, IdIsNot("T002")) == [Seed[0], Seed[2], Seed[3], Seed[4]]
  {
    FilterDropsOne(Seed, 1, IdIsNot("T002"));
  }

  /** Deleting T002 from the seed list and adding a toll mints a second "T005". */
  lemma DuplicateIdAfterDeleteThenAdd(form: TollForm)
    requires FormComplete(form)
    ensures var deleted := HandleDelete(Initial, "T002");
            var added := HandleAdd(deleted.(form := form));
            && |added.tolls| == 5
            && added.tolls[3].id == "T005"
            && added.tolls[4].id == "T005"
            && !DistinctKeys(added.tolls, IdOf)
  {
    DeleteT002FromSeed();
    FourthMintedId();
    var added := HandleAdd(HandleDelete(Initial, "T002").(form := form));
    assert added.tolls[3] == Seed[4];
    assert IdOf(added.tolls[3]) == IdOf(added.tolls[4]);
  }

  /**
    On the list `DuplicateIdAfterDeleteThenAdd` builds, opening the new
    T005 and submitting it untouched overwrites the seeded "Airport Access"
    toll with the new toll's name; deleting "T005" removes both tolls.
  */
  lemma SharedIdEditAndDelete(form: TollForm)
    requires FormComplete(form) && form.name != Seed[4].name
    ensures |HandleAdd(HandleDelete(Initial, "T002").(form := form)).tolls| == 5
    ensures var added := HandleAdd(HandleDelete(Initial, "T002").(form := form)).tolls;
            var edited := Submit(OpenEditDialog(Initial.(tolls := added), added[4])).tolls;
            var deleted := HandleDelete(Initial.(tolls := added), "T005").tolls;
            && added[3] == Seed[4]
            && |edited| == 5 && edited[3].name == form.name && edited != added
            && added[3] !in deleted && added[4] !in deleted
  {
    DuplicateIdAfterDeleteThenAdd(form);
    SeedTollAfterDeleteThenAdd(form);
    var added := HandleAdd(HandleDelete(Initial, "T002").(form := form)).tolls;
    EditSharedIdOverwrites(Initial.(tolls := added), 3, 4);
  }

  /** The seeded T005 sits at position 3 of the list `DuplicateIdAfterDeleteThenAdd` builds. */
  lemma SeedTollAfterDeleteThenAdd(form: TollForm)
    requires FormComplete(form)
    ensures var added := HandleAdd(HandleDelete(Initial, "T002").(form := form)).tolls;
            |added| == 5 && added[3] == Seed[4] && Mirrors(form, added[4])
  {
    DeleteT002FromSeed();
    var s := HandleDelete(Initial, "T002").(form := form);
    assert s.tolls == [Seed[0], Seed[2], Seed[3], Seed[4]];
    assert HandleAdd(s).tolls[..4] == s.tolls;
  }

  /**
    When tolls `i` and `j` share an id, submitting the untouched form of
    toll `j` gives toll `i` the editable fields of toll `j`.
  */
  lemma EditSharedIdOverwrites(s: Screen, i: nat, j: nat)
    requires i < |s.tolls| && j < |s.tolls| && s.tolls[i].id == s.tolls[j].id
    ensures var e := OpenEditDialog(s, s.tolls[j]);
            var u := s.tolls[j];
            FormComplete(e.form) ==>
              Submit(e).tolls[i] == s.tolls[i].(name := u.name, location := u.location, rate := u.rate, status := u.status, tollType := u.tollType)
  {
  }

  lemma FreshIdUnused(tolls: seq<Toll>)
    ensures forall i :: 0 <= i < |tolls| ==> IdOf(tolls[i]) != Ids.FreshId(Prefix, Keys(tolls, IdOf))
  {
    var ids := Keys(tolls, IdOf);
    var id := Ids.FreshId(Prefix, ids);
    forall i | 0 <= i < |tolls| ensures IdOf(tolls[i]) != id {
      assert ids[i] in ids;
    }
  }

  /** `HandleAdd` with the id minted past the largest ordinal in use instead of from the length. */
  function HandleAddFresh(s: Screen): (r: Screen)
    ensures !FormComplete(s.form) ==> r == s
    ensures FormComplete(s.form) ==>
      && |r.tolls| == |s.tolls| + 1
      && r.tolls[..|s.tolls|] == s.tolls
      && r.tolls[|s.tolls|].id !in Keys(s.tolls, IdOf)
      && Mirrors(s.form, r.tolls[|s.tolls|])
      && r.tolls[|s.tolls|].dailyRevenue == 0
      && r.tolls[|s.tolls|].vehicles == 0
      && r == ResetForm(s).(tolls := r.tolls)
    ensures DistinctKeys(s.tolls, IdOf) ==> DistinctKeys(r.tolls, IdOf)
  {
    if !FormComplete(s.form) then
      s
    else
      var t := FromForm(Ids.FreshId(Prefix, Keys(s.tolls, IdOf)), s.form);
      var tolls := s.tolls + [t];
      assert tolls[..|s.tolls|] == s.tolls;
      FreshIdUnused(s.tolls);
      DistinctKeysAppend(s.tolls, t, IdOf);
      ResetForm(s.(tolls := tolls))
  }
}

=== FILE: vehicles.dfy ===
/**
  The vehicle management screen: a fixed list of registered vehicles (no
  add or delete), a search box, an edit dialog that changes a vehicle's
  owner, phone, address and status, a read-only view dialog, and stat
  cards counting all, active and suspended vehicles.
*/
module Vehicles {
  import opened Wrappers
  import opened Text
  import opened Collection

  datatype Vehicle = Vehicle(
    id: string,
    plateNumber: string,
    owner: string,
    model: string,
    status: string,
    fines: int,
    totalFines: int,
    lastViolation: string,
    phone: string,
    address: string)

  /** The edit dialog's form buffer. */
  datatype EditData = EditData(owner: string, phone: string, address: string, status: string)

  /**
    The screen state: the vehicles, the search box, the vehicle last opened
    for editing or viewing, the two dialogs' open flags, and the edit buffer.
  */
  datatype Screen = Screen(
    vehicles: seq<Vehicle>,
    searchTerm: string,
    selected: Option<Vehicle>,
    editOpen: bool,
    viewOpen: bool,
    editData: EditData)

  const Active: string := "Active"
  const Suspended: string := "Suspended"

  const Seed: seq<Vehicle> := [
    Vehicle("V001", "ABC-123", "John Smith", "Toyota Camry 2020", "Active", 2, 325, "2024-01-10",
            "(555) 123-4567", "123 Main St, City"),
    Vehicle("V002", "XYZ-789", "Sarah Johnson", "Honda Civic 2019", "Suspended", 5, 750, "2024-01-15",
            "(555) 987-6543", "456 Oak Ave, City"),
    Vehicle("V003", "DEF-456", "Mike Wilson", "Ford F-150 2021", "Active", 1, 150, "2024-01-05",
            "(555) 456-7890", "789 Pine St, City"),
    Vehicle("V004", "GHI-321", "Emily Davis", "BMW X3 2022", "Active", 0, 0, "Never",
            "(555) 321-6547", "321 Elm St, City"),
    Vehicle("V005", "JKL-654", "Robert Brown", "Tesla Model 3 2023", "Warning", 3, 450, "2024-01-12",
            "(555) 654-3210", "654 Maple Ave, City")
  ]

  const Initial: Screen := Screen(Seed, "", None, false, false, EditData("", "", "", ""))

  function IdOf(v: Vehicle): string {
    v.id
  }


  // ---------------------------------------------------------------- search

  /** A vehicle is shown when the term occurs, ignoring case, in its plate number, owner or model. */
  predicate Matches(term: string, v: Vehicle) {
    MatchesAny(term, [v.plateNumber, v.owner, v.model])
  }

  function MatchesTerm(term: string): Vehicle -> bool {
    v => Matches(term, v)
  }

  /** `filteredVehicles`: the vehicles the table shows for a search term. */
  function Visible(vehicles: seq<Vehicle>, term: string): (r: seq<Vehicle>)
    ensures IsSubseq(r, vehicles)
    ensures forall v :: v in r <==> (v in vehicles &&
      (Contains(Lower(v.plateNumber), Lower(term)) ||
       Contains(Lower(v.owner), Lower(term)) ||
       Contains(Lower(v.model), Lower(term))))
    ensures forall v :: multiset(r)[v] == if Matches(term, v) then multiset(vehicles)[v] else 0
  {
    var r := Filter(vehicles, MatchesTerm(term));
    FilterMembers(vehicles, MatchesTerm(term));
    FilterMultiset(vehicles, MatchesTerm(term));
    assert forall v :: Matches(term, v) <==>
      (Contains(Lower(v.plateNumber), Lower(term)) ||
       Contains(Lower(v.owner), Lower(term)) ||
       Contains(Lower(v.model), Lower(term))) by {
      forall v: Vehicle {
        MatchesAnyThree(term, v.plateNumber, v.owner, v.model);
      }
    }
    r
  }

  /** An empty search box shows every vehicle, in order. */
  lemma VisibleEmptyTerm(vehicles: seq<Vehicle>)
    ensures Visible(vehicles, "") == vehicles
  {
    forall i | 0 <= i < |vehicles| ensures MatchesTerm("")(vehicles[i]) {
      MatchesAnyEmptyTerm([vehicles[i].plateNumber, vehicles[i].owner, vehicles[i].model]);
    }
    FilterKeepsAll(vehicles, MatchesTerm(""));
  }

  // ---------------------------------------------------------------- edit

  /** The buffer shows exactly the editable fields of `v`. */
  predicate Mirrors(d: EditData, v: Vehicle) {
    d.owner == v.owner && d.phone == v.phone && d.address == v.address && d.status == v.status
  }

  /** The presence check of `handleUpdate`; the status is not checked. */
  predicate EditComplete(d: EditData) {
    d.owner != "" && d.phone != "" && d.address != ""
  }

  /** `openEditDialog`: select `v`, load its fields into the buffer, open the edit dialog. */
  function OpenEditDialog(s: Screen, v: Vehicle): (r: Screen)
    ensures r.selected == Some(v) && r.editOpen && Mirrors(r.editData, v)
    ensures r.vehicles == s.vehicles && r.searchTerm == s.searchTerm && r.viewOpen == s.viewOpen
  {
    s.(selected := Some(v), editData := EditData(v.owner, v.phone, v.address, v.status), editOpen := true)
  }

  /** `openViewDialog`: select `v` and open the view dialog; the buffer is left as it was. */
  function OpenViewDialog(s: Screen, v: Vehicle): (r: Screen)
    ensures r.selected == Some(v) && r.viewOpen
    ensures r.vehicles == s.vehicles && r.editData == s.editData && r.editOpen == s.editOpen
    ensures r.searchTerm == s.searchTerm
  {
    s.(selected := Some(v), viewOpen := true)
  }

  /** The `vehicles.map` of `handleUpdate`: vehicles with id `id` take the buffer's four fields. */
  function UpdateVehicles(vehicles: seq<Vehicle>, id: string, d: EditData): (r: seq<Vehicle>)
    ensures |r| == |vehicles|
    ensures forall i :: 0 <= i < |vehicles| && vehicles[i].id != id ==> r[i] == vehicles[i]
    ensures forall i :: 0 <= i < |vehicles| && vehicles[i].id == id ==>
      && Mirrors(d, r[i])
      && r[i].id == vehicles[i].id
      && r[i].plateNumber == vehicles[i].plateNumber
      && r[i].model == vehicles[i].model
      && r[i].fines == vehicles[i].fines
      && r[i].totalFines == vehicles[i].totalFines
      && r[i].lastViolation == vehicles[i].lastViolation
  {
    seq(|vehicles|, i requires 0 <= i < |vehicles| =>
      var v := vehicles[i];
      if v.id == id
      then v.(owner := d.owner, phone := d.phone, address := d.address, status := d.status)
      else v)
  }

  /**
    `handleUpdate`: rejected (nothing changes) when no vehicle is selected
    or owner, phone or address is empty; otherwise the selected vehicle's
    fields are replaced, the selection cleared and the edit dialog closed.
    The buffer itself is not cleared.
  */
  function HandleUpdate(s: Screen): (r: Screen)
    ensures s.selected == None || !EditComplete(s.editData) ==> r == s
    ensures s.selected != None && EditComplete(s.editData) ==>
      && r.vehicles == UpdateVehicles(s.vehicles, s.selected.value.id, s.editData)
      && r.selected == None
      && !r.editOpen
      && r == s.(vehicles := r.vehicles, selected := None, editOpen := false)
    ensures |r.vehicles| == |s.vehicles|
    ensures Keys(r.vehicles, IdOf) == Keys(s.vehicles, IdOf)
    ensures r == s <==> s.selected == None || !EditComplete(s.editData)
  {
    if s.selected == None || !EditComplete(s.editData) then
      s
    else
      var vs := UpdateVehicles(s.vehicles, s.selected.value.id, s.editData);
      assert Keys(vs, IdOf) == Keys(s.vehicles, IdOf);
      s.(vehicles := vs, editOpen := false, selected := None)
  }

  /** Opening a listed vehicle for editing and committing the untouched buffer leaves the list as it was. */
  lemma EditWithoutChangesIsIdentity(s: Screen, v: Vehicle)
    requires v in s.vehicles && DistinctKeys(s.vehicles, IdOf)
    ensures HandleUpdate(OpenEditDialog(s, v)).vehicles == s.vehicles
  {
    var e := OpenEditDialog(s, v);
    if EditComplete(e.editData) {
      var r := UpdateVehicles(s.vehicles, v.id, e.editData);
      var k :| 0 <= k < |s.vehicles| && s.vehicles[k] == v;
      forall i | 0 <= i < |s.vehicles| ensures r[i] == s.vehicles[i] {
        if s.vehicles[i].id == v.id {
          assert IdOf(s.vehicles[i]) == IdOf(s.vehicles[k]);
          assert i == k;
        }
      }
    }
  }

  // ---------------------------------------------------------------- user events

  /** What the user can do on this screen. */
  datatype Event =
    | Search(term: string)
    | OpenEdit(v: Vehicle)
    | OpenView(v: Vehicle)
    | SetEditOpen(open: bool)
    | SetViewOpen(open: bool)
    | EditFields(d: EditData)
    | ClickUpdate

  /** One event. The update button exists only while the edit dialog is open. */
  function Step(s: Screen, e: Event): (r: Screen)
    ensures Keys(r.vehicles, IdOf) == Keys(s.vehicles, IdOf)
  {
    match e
    case Search(term) => s.(searchTerm := term)
    case OpenEdit(v) => OpenEditDialog(s, v)
    case OpenView(v) => OpenViewDialog(s, v)
    case SetEditOpen(open) => s.(editOpen := open)
    case SetViewOpen(open) => s.(viewOpen := open)
    case EditFields(d) => s.(editData := d)
    case ClickUpdate => if s.editOpen then HandleUpdate(s) else s
  }

  function Run(s: Screen, events: seq<Event>): Screen
    decreases |events|
  {
    if |events| == 0 then s else Run(Step(s, events[0]), events[1..])
  }

  /** No sequence of events changes which id sits at which position. */
  lemma {:induction false} RunKeepsIds(s: Screen, events: seq<Event>)
    ensures Keys(Run(s, events).vehicles, IdOf) == Keys(s.vehicles, IdOf)
    decreases |events|
  {
    if |events| > 0 {
      RunKeepsIds(Step(s, events[0]), events[1..]);
    }
  }

  lemma SeedIdsDistinct()
    ensures DistinctKeys(Seed, IdOf)
  {
  }

  /** Every state the screen can reach from its initial state has pairwise different vehicle ids. */
  lemma ReachableIdsDistinct(events: seq<Event>)
    ensures DistinctKeys(Run(Initial, events).vehicles, IdOf)
  {
    RunKeepsIds(Initial, events);
    SeedIdsDistinct();
    var vs := Run(Initial, events).vehicles;
    assert forall i :: 0 <= i < |Seed| ==> IdOf(Seed[i]) == Keys(Seed, IdOf)[i] == Keys(vs, IdOf)[i] == IdOf(vs[i]);
    DistinctKeysPointwise(Seed, vs, IdOf);
  }

  /** In every reachable state, editing a listed vehicle without changes and committing is the identity. */
  lemma ReachableEditWithoutChanges(events: seq<Event>, v: Vehicle)
    requires v in Run(Initial, events).vehicles
    ensures HandleUpdate(OpenEditDialog(Run(Initial, events), v)).vehicles == Run(Initial, events).vehicles
  {
    ReachableIdsDistinct(events);
    EditWithoutChangesIsIdentity(Run(Initial, events), v);
  }

  // ---------------------------------------------------------------- stat cards

  function HasStatus(status: string): Vehicle -> bool {
    (v: Vehicle) => v.status == status
  }

  /** `totalVehicles`: never below the active and suspended cards together. */
  function TotalVehicles(vehicles: seq<Vehicle>): (n: nat)
    ensures ActiveVehicles(vehicles) + SuspendedVehicles(vehicles) <= n
  {
    FilterDisjointLength(vehicles, HasStatus(Active), HasStatus(Suspended));
    |vehicles|
  }

  /** `activeVehicles`: at most the total, and zero exactly when no vehicle is active. */
  function ActiveVehicles(vehicles: seq<Vehicle>): (n: nat)
    ensures n <= |vehicles|
    ensures n == 0 <==> forall i :: 0 <= i < |vehicles| ==> vehicles[i].status != Active
  {
    FilterLength(vehicles, HasStatus(Active));
    FilterEmpty(vehicles, HasStatus(Active));
    |Filter(vehicles, HasStatus(Active))|
  }

  /** `suspendedVehicles`: at most the total, and zero exactly when no vehicle is suspended. */
  function SuspendedVehicles(vehicles: seq<Vehicle>): (n: nat)
    ensures n <= |vehicles|
    ensures n == 0 <==> forall i :: 0 <= i < |vehicles| ==> vehicles[i].status != Suspended
  {
    FilterLength(vehicles, HasStatus(Suspended));
    FilterEmpty(vehicles, HasStatus(Suspended));
    |Filter(vehicles, HasStatus(Suspended))|
  }

  /** No vehicle is both active and suspended, so the two cards never add up to more than the total. */
  lemma StatCardsBounded(vehicles: seq<Vehicle>)
    ensures ActiveVehicles(vehicles) + SuspendedVehicles(vehicles) <= TotalVehicles(vehicles)
  {
    FilterDisjointLength(vehicles, HasStatus(Active), HasStatus(Suspended));
  }

  /** The seeded screen shows 5 vehicles, 3 active and 1 suspended. */
  lemma SeedStatCards()
    ensures TotalVehicles(Seed) == 5
    ensures ActiveVehicles(Seed) == 3
    ensures SuspendedVehicles(Seed) == 1
  {
    var a, b := HasStatus(Active), HasStatus(Suspended);
    assert Seed == [Seed[0]] + [Seed[1]] + [Seed[2]] + [Seed[3]] + [Seed[4]];
    FilterAppend([Seed[0]] + [Seed[1]] + [Seed[2]] + [Seed[3]], [Seed[4]], a);
    FilterAppend([Seed[0]] + [Seed[1]] + [Seed[2]], [Seed[3]], a);
    FilterAppend([Seed[0]] + [Seed[1]], [Seed[2]], a);
    FilterAppend([Seed[0]], [Seed[1]], a);
    FilterAppend([Seed[0]] + [Seed[1]] + [Seed[2]] + [Seed[3]], [Seed[4]], b);
    FilterAppend([Seed[0]] + [Seed[1]] + [Seed[2]], [Seed[3]], b);
    FilterAppend([Seed[0]] + [Seed[1]], [Seed[2]], b);
    FilterAppend([Seed[0]], [Seed[1]], b);
  }
}

=== FILE: wrappers.dfy ===
/** Optional values: the source's `null`-or-record state variables. */
module Wrappers {

  datatype Option<+T> = None | Some(value: T)

}
